=== FILE: README.md ===
# Allocation engine of `myMalloc_GOOD.c`, in Dafny

This project models `allocate_object` and `deallocate_object`, the two
functions that make up the allocation engine of a segregated-fit,
boundary-tag allocator. It proves the properties the engine relies on.

- **Blocks.** The heap is an address-ordered map from a block header's byte
  offset to its record `(size, leftSize, state)`. The boundary tag
  `leftSize` is the size of the block physically to the left. The arena
  edges are guard blocks (`Fencepost`), which are never free.
- **Free lists.** Each size class has a circular list with a sentinel. In
  the model that list is a sequence whose first element is the node after
  the sentinel. Pushing at the sentinel is prepending, and unlinking a node
  removes that element.
- **Invariant.** `Heap.WellFormed` is the heap invariant. Blocks have
  positive, aligned sizes and do not overlap. Every non-guard block has a
  right neighbour at its end and a left neighbour where its tag points.
  Tags agree with sizes. No two free blocks are adjacent. The free lists
  hold exactly the free blocks, each once.
- **Constants.** `ALLOC_HEADER_SIZE`, `sizeof(header)` and `N_LISTS` are
  not fixed in the source file. They are the fields of `Heap.Config`, which
  is constrained by `Heap.ValidConfig`: the two sizes are multiples of 8,
  `sizeof(header) >= ALLOC_HEADER_SIZE + 8`, and there is at least one
  bucket.
- **Operations.** `Allocate.Allocate` and `Deallocate.Deallocate` are pure
  transition functions. A double free is the result `DoubleFree`, in place
  of `printf` followed by `abort()`.

Modules:

| module | file | models |
|---|---|---|
| `FreeLists` | free_lists.dfy | the bucket array: push at the front, unlink by position, unlink by node |
| `Heap` | heap.dfy | blocks, neighbours through sizes and tags, the heap invariant |
| `SizeClass` | size_class.dfy | request rounding and the three bucket computations |
| `Allocate` | allocate.dfy | `allocate_object`: first-fit search, split, unlink and relist |
| `Deallocate` | deallocate.dfy | `deallocate_object`: double free, two-sided coalescing, retag and relist |
| `RoundTrip` | round_trip.dfy | freeing what was just allocated undoes the allocation |
| `FixedWidth` | fixed_width.dfy | the rounding and bucket arithmetic at the machine's integer widths |

Points of the code the model follows closely:

- **Split orientation.** A split keeps the free remainder at the original
  offset, with its original boundary tag, and carves the allocated block
  from the high end. The right neighbour's tag becomes the allocated size
  (lines 61-73).
- **Starting bucket.** The search starts from the payload size class
  `rounded / 8 - 1`, not from the class of the whole block (line 27).
- **Split threshold.** A block is split when the leftover is at least
  `sizeof(header)` (line 60).
- **No fit.** When no bucket holds a fitting block the code returns NULL
  (lines 48-51). It does not grow the arena, and neither does the model.

## Model

| member | source | states |
|---|---|---|
| FreeLists.Push | myMalloc_GOOD.c:81-86 | the pushed block becomes the first node of its bucket, the old nodes of that bucket follow in order, and every other bucket is unchanged |
| FreeLists.PushListed | myMalloc_GOOD.c:162-167 | pushing a block onto any bucket adds exactly one occurrence of it to the lists as a whole |
| FreeLists.RemoveAt | myMalloc_GOOD.c:53-55 | unlinking the chosen node leaves its bucket as the nodes before it followed by the nodes after it, and touches no other bucket |
| FreeLists.RemoveAtListed | myMalloc_GOOD.c:53-55 | unlinking the chosen node removes exactly one occurrence of it from the lists as a whole |
| FreeLists.Without | myMalloc_GOOD.c:127-128 | unlinking a node through its own links removes every occurrence of it, keeps every other node, and leaves a bucket that does not hold it unchanged |
| FreeLists.WithoutOnce | myMalloc_GOOD.c:126-141 | a node that occurs once is unlinked by dropping exactly its position, so the nodes before and after it keep their order for the next first-fit walk |
| FreeLists.Unlink | myMalloc_GOOD.c:140-141 | unlinking a node needs no bucket index: each bucket loses that node and nothing else |
| FreeLists.UnlinkListed | myMalloc_GOOD.c:126-141 | after unlinking a node it is listed nowhere and every other node is listed as often as before |
| FreeLists.UnlinkIsRemoveAt | myMalloc_GOOD.c:126-141 | for a node listed once, unlinking it by its own links, as the merges do, gives the same buckets as unlinking it at its bucket and position, as lines 53-55 do |
| Heap.NotFreeNotListed | myMalloc_GOOD.c:53-90 | under the list invariant a block that is not free is on no bucket, so a returned (allocated) block is linked nowhere |
| Heap.UnlinkListedNode | myMalloc_GOOD.c:126-141 | under the list invariant, unlinking any listed node by its own links is unlinking it at its position |
| Heap.HeaderOf | myMalloc_GOOD.c:93-111 | the header lies ALLOC_HEADER_SIZE bytes before the payload pointer, so stepping back at line 111 undoes the `block->data` of line 93 |
| SizeClass.RoundUp8 | myMalloc_GOOD.c:19 | `(raw + 7) & ~7` is the least multiple of 8 that is at least `raw` |
| SizeClass.Rounded | myMalloc_GOOD.c:18-23 | the rounded payload is aligned, covers the request, is at least ALLOC_HEADER_SIZE, and exceeds the request by less than 8 unless the floor applied |
| SizeClass.ActualSize | myMalloc_GOOD.c:24 | the block size needed is aligned, covers the request plus its header, and can hold two headers |
| SizeClass.Bucket | myMalloc_GOOD.c:27-30 | the class `payload / 8 - 1`, capped at N_LISTS - 1, is a valid bucket, and a bucket below the last holds exactly the payloads from 8(i+1) to 8(i+2) - 1 |
| SizeClass.StartBucket | myMalloc_GOOD.c:26-30 | the bucket the search starts from is always in [0, N_LISTS) |
| SizeClass.RemainderBucket | myMalloc_GOOD.c:75-79 | the bucket of a split remainder is always valid |
| SizeClass.FreedBucket | myMalloc_GOOD.c:152-160 | the bucket of a released block, with its payload floored at ALLOC_HEADER_SIZE, is always valid |
| SizeClass.BucketMonotone | myMalloc_GOOD.c:27-30 | a larger payload never falls into a lower size class |
| SizeClass.RoundedMonotone | myMalloc_GOOD.c:18-23 | rounding is monotone in the request |
| SizeClass.StartBucketMonotone | myMalloc_GOOD.c:18-30 | the starting bucket is non-decreasing in the request size |
| Allocate.FirstFitIn | myMalloc_GOOD.c:40-42 | the walk of one bucket stops at the first node, in list order, whose size is at least the needed size, or reports that no node fits |
| Allocate.SearchFrom | myMalloc_GOOD.c:37-46 | the search over buckets finds the first fit of the lowest bucket at or after the start that has one, or establishes that none of them has a fitting node |
| Allocate.FirstFitUnique | myMalloc_GOOD.c:37-46 | the first-fit node is unique, so the search's choice is determined |
| Allocate.SplitBlocks | myMalloc_GOOD.c:57-73 | the split adds exactly one header, at offset + leftover; the two parts' sizes sum to the original size, and the upper part ends where the original block ended |
| Allocate.SplitLookup | myMalloc_GOOD.c:61-73 | after the split the remainder keeps its offset, tag and state; the new block has the needed size, tag `leftover` and is allocated; the right neighbour's tag becomes the needed size; no other block changes |
| Allocate.SetState | myMalloc_GOOD.c:90 | marking the block allocated changes its state only |
| Allocate.Take | myMalloc_GOOD.c:53-93 | taking a fitting node always returns a pointer whose header is an allocated block at least as large as needed |
| Allocate.Allocate | myMalloc_GOOD.c:10-95 | a request of 0 returns NULL; NULL leaves the heap unchanged; a positive request returns NULL exactly when no bucket from the start bucket holds a fitting node; otherwise the pointer's header is an allocated block that covers the request plus its header |
| Allocate.SplitKeepsBlocksOk | myMalloc_GOOD.c:57-73 | splitting a free block keeps sizes, disjointness, neighbours, tags and coalescing, and leaves the set of free headers unchanged |
| Allocate.WholeKeepsBlocksOk | myMalloc_GOOD.c:89-90 | allocating a free block whole keeps the block invariants and removes just that block from the free set |
| Allocate.SplitKeepsWellFormed | myMalloc_GOOD.c:53-86 | unlinking the node, splitting it and pushing the remainder keeps the heap invariant, including lists holding exactly the free blocks |
| Allocate.WholeKeepsWellFormed | myMalloc_GOOD.c:53-90 | unlinking the node and allocating it whole keeps the heap invariant |
| Allocate.TakeKeepsWellFormed | myMalloc_GOOD.c:53-93 | taking any fitting node, split or not, keeps the heap invariant |
| Allocate.AllocateKeepsWellFormed | myMalloc_GOOD.c:10-95 | `allocate_object` preserves the heap invariant |
| Allocate.AllocatedBlockUnlisted | myMalloc_GOOD.c:53-93 | the header behind the returned pointer is on no free list of the new heap |
| Allocate.AllocateTakesFirstFit | myMalloc_GOOD.c:32-51 | whenever a node is the first fit from the start bucket, that node is the one allocated |
| Allocate.TakeSplit | myMalloc_GOOD.c:58-93 | in the split case the pointer is past the header of the upper part, the blocks are the split geometry, and the remainder is pushed onto the bucket of its size after the node is unlinked |
| Allocate.AllocateSplitOutcome | myMalloc_GOOD.c:58-86 | when the leftover can hold a free header, the first-fit block is split, the allocated part is the upper one, and the remainder is at the front of the bucket of its new size |
| Allocate.AllocateWholeOutcome | myMalloc_GOOD.c:53-93 | otherwise the first-fit block is allocated whole; only its state and its own bucket change, and every other block and bucket is untouched |
| Deallocate.MergeBlocks | myMalloc_GOOD.c:130-150 | a merge removes exactly the absorbed headers, makes the run's first header a free block spanning the run, and retags the block after it |
| Deallocate.MergeKeepsBlocksOk | myMalloc_GOOD.c:123-150 | merging a run of blocks bordered by non-free blocks keeps the block invariants, and the free set loses the absorbed headers and gains the run's start |
| Deallocate.Coalescing | myMalloc_GOOD.c:123-146 | the left neighbour is merged exactly when it is free, the right neighbour exactly when it is free, and the merged run starts at the leftmost merged block and spans the sum of the merged sizes |
| Deallocate.UnlinkMerged | myMalloc_GOOD.c:126-141 | unlinking the merged neighbours keeps the number of buckets |
| Deallocate.UnlinkMergedListed | myMalloc_GOOD.c:126-141 | exactly the merged neighbours lose their list entries |
| Deallocate.Deallocate | myMalloc_GOOD.c:102-169 | NULL changes nothing, and the result is a double free exactly when the pointer's header is a free block |
| Deallocate.Absorbed | myMalloc_GOOD.c:130-146 | the headers that disappear are at most the freed block's and its right neighbour's: the freed block's exactly when it joins its left neighbour, the right neighbour's exactly when that one joins |
| Deallocate.Release | myMalloc_GOOD.c:120-167 | releasing keeps the number of buckets, only ever removes headers, and leaves the freed header, when it survives, marked free |
| Deallocate.ReleaseRunOk | myMalloc_GOOD.c:123-146 | the run a release coalesces is aligned, covers only absorbed headers, and is bordered by blocks that are not free |
| Deallocate.ReleaseKeepsBlocksOk | myMalloc_GOOD.c:120-150 | releasing an allocated block keeps the block invariants; the free set loses the absorbed headers and gains the merged block |
| Deallocate.RelistExact | myMalloc_GOOD.c:126-167 | if the lists held exactly the free set, unlinking the merged neighbours and pushing the merged block leaves them holding exactly the new free set |
| Deallocate.ReleaseListsExact | myMalloc_GOOD.c:126-167 | after a release the free lists again hold exactly the free blocks, each once |
| Deallocate.ReleaseKeepsWellFormed | myMalloc_GOOD.c:120-167 | releasing an allocated block preserves the heap invariant |
| Deallocate.DeallocateKeepsWellFormed | myMalloc_GOOD.c:102-169 | whenever `deallocate_object` returns, the heap invariant holds |
| Deallocate.ReleaseOutcome | myMalloc_GOOD.c:120-167 | the freed block lies inside the merged run; the run's start is a free block ending at the run's end, the block after the run is retagged with the merged size, and the merged block is the first node of the bucket of its size |
| Deallocate.ReleaseOnlyTouchesRun | myMalloc_GOOD.c:123-150 | headers strictly inside the merged run are gone, and every block outside the run is unchanged |
| Deallocate.SecondFreeIsDoubleFree | myMalloc_GOOD.c:113-121 | the first free of a pointer is not a double free; when its block did not merge into its left neighbour, the second free of the same pointer is reported as a double free |
| RoundTrip.SplitThenMerge | myMalloc_GOOD.c:123-146 | a block just split off is allocated, bordered on the left by its free remainder and on the right by a block that is not free |
| RoundTrip.SplitMergeRestores | myMalloc_GOOD.c:130-150 | merging the split-off block back into its remainder gives back exactly the blocks before the split |
| RoundTrip.WholeThenMerge | myMalloc_GOOD.c:123-150 | a block allocated whole has no free neighbour, and releasing it restores exactly the blocks before the allocation |
| RoundTrip.SplitReleaseRestores | myMalloc_GOOD.c:120-150 | releasing the upper part of a split block restores the blocks before the split |
| RoundTrip.WholeReleaseRestores | myMalloc_GOOD.c:120-150 | releasing a block allocated whole restores the blocks before the allocation |
| RoundTrip.AllocateShape | myMalloc_GOOD.c:53-93 | a successful allocation either split a free block and returned its upper part, or allocated a free block whole |
| RoundTrip.TakenReleaseRestores | myMalloc_GOOD.c:120-150 | releasing the returned block, in either shape, restores the blocks before the allocation |
| RoundTrip.FreeRestores | myMalloc_GOOD.c:102-167 | freeing an allocated block whose release restores an earlier heap's blocks is not a double free, and it restores that heap's free lists up to order |
| RoundTrip.TakenFreeRestores | myMalloc_GOOD.c:102-169 | freeing the returned block restores the blocks and, up to order, the free lists |
| RoundTrip.AllocateThenFree | myMalloc_GOOD.c:10-169 | `deallocate_object(allocate_object(n))` never reports a double free, restores every block exactly, and leaves the free lists holding the same blocks |
| RoundTrip.AllocateThenDeallocate | myMalloc_GOOD.c:10-169 | freeing the result of a request of 0 changes nothing, and whenever the pair returns, the heap invariant holds |
| FixedWidth.ToInt32 | myMalloc_GOOD.c:27 | storing a `size_t` in an `int` yields a value in the 32-bit signed range, exact below 2^31 |
| FixedWidth.RoundedAsWritten | myMalloc_GOOD.c:19-23 | the 64-bit rounding is aligned and at least ALLOC_HEADER_SIZE |
| FixedWidth.RoundedAsWrittenAgrees | myMalloc_GOOD.c:19-23 | below the top 7 values of `size_t` the 64-bit rounding is the unbounded one |
| FixedWidth.RoundedAsWrittenShrinks | myMalloc_GOOD.c:19 | the request 2^64 - 1 wraps to a rounded size of ALLOC_HEADER_SIZE, below the request |
| FixedWidth.ActualSizeAsWritten | myMalloc_GOOD.c:24 | the 64-bit `actual_size` is a multiple of 8 below 2^64 |
| FixedWidth.ActualSizeWrapsExactly | myMalloc_GOOD.c:19-24 | line 24 overflows for exactly the requests from 2^64 - ALLOC_HEADER_SIZE - 7 to 2^64 - 8; the seven requests above them wrap at line 19 instead, and their sum does not overflow |
| FixedWidth.ActualSizeAsWrittenShrinks | myMalloc_GOOD.c:24 | the request 2^64 - 8 gets an `actual_size` of ALLOC_HEADER_SIZE - 8, far below the request, while `ActualSize` covers the request plus its header |
| FixedWidth.ActualSizeAsWrittenAgrees | myMalloc_GOOD.c:18-24 | below that range line 24 computes the size `ActualSize` does |
| FixedWidth.StartBucketAsWritten | myMalloc_GOOD.c:19-30 | from the 64-bit rounding of line 19, the index stored in an `int` at line 27 is capped from above only |
| FixedWidth.StartBucketAsWrittenAgrees | myMalloc_GOOD.c:19-30 | when line 19 does not wrap and `rounded / 8 - 1 < 2^31`, the stored index is the bucket `StartBucket` picks |
| FixedWidth.StartBucketAsWrittenNegative | myMalloc_GOOD.c:27-33 | the request 2^34 + 8 yields the index -2^31, although the unbounded start bucket is valid |
| FixedWidth.StartBucketAsWrittenTop | myMalloc_GOOD.c:19-30 | the seven largest requests, whose rounding wraps to ALLOC_HEADER_SIZE, start the search at that payload's class, a valid bucket no higher than `StartBucket`'s |
| FixedWidth.StartBucketAsWrittenInWrapRange | myMalloc_GOOD.c:24-30 | every request whose `actual_size` wraps at line 24 also gets a negative start index at line 27, between -(ALLOC_HEADER_SIZE / 8) - 1 and -2, which the upper cap lets through; the request 2^64 - 8 gets -2 |
| FixedWidth.StoredIndex | myMalloc_GOOD.c:27-30 | an index stored in an `int` and capped from above is below N_LISTS, and is the unbounded capped index when it fits in 31 bits |
| FixedWidth.RemainderBucketAsWritten | myMalloc_GOOD.c:76-79 | the remainder's stored index is capped from above only |
| FixedWidth.RemainderBucketAsWrittenAgrees | myMalloc_GOOD.c:76-79 | while the remainder's `payload / 8 - 1` is below 2^31 the code picks the bucket `RemainderBucket` picks |
| FixedWidth.RemainderBucketAsWrittenNegative | myMalloc_GOOD.c:76-86 | a remainder with a payload of 2^34 + 8 bytes is pushed onto index -2^31, although the unbounded remainder bucket is valid |
| FixedWidth.Quot8 | myMalloc_GOOD.c:157 | C's division of an `int` by 8 truncates toward zero |
| FixedWidth.FreedBucketAsWritten | myMalloc_GOOD.c:153-160 | the freed block's index, computed from a 32-bit `alloc_size`, is capped from above only |
| FixedWidth.FreedBucketAsWrittenAgrees | myMalloc_GOOD.c:153-160 | while the payload is below 2^31 bytes the code, whatever the type of ALLOC_HEADER_SIZE, picks the bucket `FreedBucket` picks |
| FixedWidth.FreedBucketAsWrittenMisfiles | myMalloc_GOOD.c:153-160 | with a signed comparison, a merged block with a payload of 2^31 + 8 bytes is floored to ALLOC_HEADER_SIZE and filed below the last bucket, where `FreedBucket` puts it |
| FixedWidth.FreedBucketAsWrittenNegative | myMalloc_GOOD.c:153-160 | with an unsigned comparison, the same block gets the index -2^28, which passes the cap |

## Left out

- Arena growth and fencepost construction. When nothing fits, this code returns NULL (lines 48-51), as the model does. Guard blocks are part of the heap invariant; how they are built is not modelled.
- Bit packing of size and state in one word (`get_size`, `set_size`, `set_state`). These helpers are not in the file. The header is a record with separate fields.
- Raw pointers and the in-memory sentinel nodes. They are replaced by byte offsets and per-bucket sequences.
- The `printf` messages and `abort()` on a double free. They become the result `DoubleFree`.
- Pointers that did not come from `allocate_object`. `Deallocate.Deallocate` requires the header in front of the pointer to be a live block that is not a guard block; in C any other pointer is undefined behaviour.
- Deallocate.SecondFreeIsDoubleFree: covers only blocks that did not merge into their left neighbour. When a block merges left, its header bytes stay in memory marked free, so the code still reports the second free. The model deletes absorbed headers, so that stale header is not represented. For that case `Deallocate.ReleaseOutcome` shows that the pointer lies inside a free block.
- RoundTrip.AllocateThenFree: proves the free lists hold the same blocks, not the same sequences. The merged block returns to the front of its bucket, which need not be where the original free block sat.
- Allocate.Allocate: requires the heap invariant, and Deallocate.Deallocate requires aligned sizes and present neighbours. The code assumes a heap it built itself and does not check for corruption.
- Machine integer widths. Outside `FixedWidth` the arithmetic is unbounded. `FixedWidth` models the 64-bit wraps at lines 19 and 24 and the three indices stored in `int` at lines 27, 76 and 153. The `size_t` sums of the merged sizes (lines 131 and 144) are not modelled; they wrap only for blocks near 2^64 bytes.
- Concurrency and heap statistics. Neither is present in this code.
- `myMalloc_BAD.c`, `my_malloc.c`, `mymalloc.c` and `main.c` are not part of this model. They are incomplete drafts of the same allocator.

## Findings

| source | as written | input that shows it | evidently intended | confidence | as-written member | corrected member |
|---|---|---|---|---|---|---|
| myMalloc_GOOD.c:19 | `(raw_size + 7) & ~7` wraps in 64-bit `size_t`, and the rounded size is then floored at ALLOC_HEADER_SIZE | raw_size = 2^64 - 1 rounds to 0, then to ALLOC_HEADER_SIZE, so a block far smaller than the request would be returned | the rounded size is never below the request (or such a request fails with NULL) | not executed; follows from 64-bit unsigned arithmetic | FixedWidth.RoundedAsWrittenShrinks | SizeClass.Rounded |
| myMalloc_GOOD.c:24 | `size_t actual_size = ALLOC_HEADER_SIZE + rounded` wraps in 64-bit `size_t` for requests from 2^64 - ALLOC_HEADER_SIZE - 7 to 2^64 - 8 | raw_size = 2^64 - 8 rounds to 2^64 - 8, and the sum wraps to ALLOC_HEADER_SIZE - 8, far below the request. At the same inputs line 27 stores a negative index (-2 for this request, `FixedWidth.StartBucketAsWrittenInWrapRange`), so with a signed N_LISTS the search reads `freelistSentinels` before its start before comparing any block; only with an unsigned N_LISTS does the cap send it to the last bucket, where every block passes the size test against the wrapped `actual_size` | the block size always covers the request plus its header (or such a request fails with NULL) | not executed; follows from 64-bit unsigned arithmetic, for ALLOC_HEADER_SIZE of at least 8 | FixedWidth.ActualSizeAsWrittenShrinks | SizeClass.ActualSize |
| myMalloc_GOOD.c:27 | `int freelist_idx = (rounded / 8) - 1` keeps the low 32 bits of a `size_t`, and the index is capped only from above | raw_size = 2^34 + 8 gives `rounded / 8 - 1 = 2^31`, stored as -2^31, which passes the cap and indexes `freelistSentinels` at line 33 before its start | a request too large for every explicit class starts at the last bucket | not executed; assumes the usual two's-complement conversion to a 32-bit `int` (it is implementation-defined) and a signed N_LISTS, whose definition is not in the file | FixedWidth.StartBucketAsWrittenNegative | SizeClass.StartBucket |
| myMalloc_GOOD.c:76 | `int free_idx = (get_size(free_block) - ALLOC_HEADER_SIZE) / 8 - 1` keeps the low 32 bits of the remainder's class, and the index is capped only from above | a split whose remainder has a payload of 2^34 + 8 bytes gives the index -2^31, and the remainder is pushed onto a sentinel before the start of `freelistSentinels` | a remainder too large for every explicit class goes to the last bucket | not executed; assumes the usual two's-complement conversion to a 32-bit `int` (it is implementation-defined) and a signed N_LISTS | FixedWidth.RemainderBucketAsWrittenNegative | SizeClass.RemainderBucket |
| myMalloc_GOOD.c:153 | `int alloc_size = get_size(block) - ALLOC_HEADER_SIZE` truncates the payload size itself to 32 bits before the floor and the division | a merged block with a payload of 2^31 + 8 bytes: with a signed ALLOC_HEADER_SIZE the floor raises the negative `alloc_size` and the block is filed in a small class (`FixedWidth.FreedBucketAsWrittenMisfiles`); with a `size_t` one the floor is skipped and the index is -2^28 (`FixedWidth.FreedBucketAsWrittenNegative`) | a freed block too large for every explicit class goes to the last bucket | not executed; assumes the usual two's-complement conversion to a 32-bit `int`, a signed N_LISTS, and one of the two readings of ALLOC_HEADER_SIZE, whose type is not in the file | FixedWidth.FreedBucketAsWrittenMisfiles | SizeClass.FreedBucket |

=== FILE: allocate.dfy ===
/** `allocate_object`: round the request, pick a starting size class, take
    the first fitting block from that bucket or a later one, unlink it, and
    split off a free remainder when the leftover can hold a free header. */
module Allocate {
  import opened Wrappers
  import opened FreeLists
  import opened Heap
  import opened SizeClass

  datatype Slot = Slot(bucket: nat, pos: nat)

  /** What `allocate_object` hands back: the new heap and the payload offset (None for NULL). */
  datatype AllocResult = AllocResult(heap: Heap, ptr: Option<int>)

  predicate Fits(b: Blocks, o: int, need: nat)
  {
    o in b && b[o].size >= need
  }

  /** No node of buckets from..to-1 is large enough. */
  ghost predicate NoFitBetween(b: Blocks, lists: FreeLists, need: nat, from: nat, to: nat)
  {
    forall i, k :: from <= i < to && i < |lists| && 0 <= k < |lists[i]| ==> !Fits(b, lists[i][k], need)
  }

  /** Node j of bucket i is the first fitting node, in list order, of the
      lowest bucket at or after `from` that has one. */
  ghost predicate IsFirstFit(b: Blocks, lists: FreeLists, need: nat, from: nat, i: nat, j: nat)
  {
    && from <= i < |lists|
    && j < |lists[i]|
    && Fits(b, lists[i][j], need)
    && (forall k :: 0 <= k < j ==> !Fits(b, lists[i][k], need))
    && NoFitBetween(b, lists, need, from, i)
  }

  /** At most one node is the first fit. */
  lemma FirstFitUnique(b: Blocks, lists: FreeLists, need: nat, from: nat, i: nat, j: nat, i': nat, j': nat)
    requires IsFirstFit(b, lists, need, from, i, j)
    requires IsFirstFit(b, lists, need, from, i', j')
    ensures i == i' && j == j'
  {
  }

  /** The inner walk of one bucket: the first fitting node at or after position j. */
  function FirstFitIn(b: Blocks, l: seq<int>, need: nat, j: nat): (r: Option<nat>)
    requires j <= |l|
    decreases |l| - j
    ensures r.Some? ==> j <= r.value < |l| && Fits(b, l[r.value], need)
    ensures r.Some? ==> forall k :: j <= k < r.value ==> !Fits(b, l[k], need)
    ensures r.None? ==> forall k :: j <= k < |l| ==> !Fits(b, l[k], need)
  {
    if j == |l| then None
    else if Fits(b, l[j], need) then Some(j)
    else FirstFitIn(b, l, need, j + 1)
  }

  /** The outer walk over buckets i, i+1, ..., N_LISTS-1. */
  function SearchFrom(b: Blocks, lists: FreeLists, need: nat, i: nat): (r: Option<Slot>)
    requires i <= |lists|
    decreases |lists| - i
    ensures r.Some? ==> IsFirstFit(b, lists, need, i, r.value.bucket, r.value.pos)
    ensures r.None? ==> NoFitBetween(b, lists, need, i, |lists|)
  {
    if i == |lists| then None
    else
      match FirstFitIn(b, lists[i], need, 0)
      case Some(j) => Some(Slot(i, j))
      case None => SearchFrom(b, lists, need, i + 1)
  }

  /** The split geometry: the free remainder keeps the original offset and
      boundary tag, the allocated part is carved from the high end, and the
      right neighbour's boundary tag is set to the allocated size. */
  function SplitBlocks(b: Blocks, o: int, leftover: nat, need: nat): (r: Blocks)
    requires o in b && RightOf(b, o) in b
    requires b[o].size == leftover + need && leftover > 0 && need > 0
    ensures r.Keys == b.Keys + {o + leftover}
    ensures o + leftover !in b
      ==> r[o].size + r[o + leftover].size == b[o].size && RightOf(r, o + leftover) == RightOf(b, o)
  {
    var right := RightOf(b, o);
    b[o := Block(leftover, b[o].leftSize, b[o].state)]
     [o + leftover := Block(need, leftover, Allocated)]
     [right := b[right].(leftSize := need)]
  }

  /** Lines 53-93 once a fitting node has been chosen. */
  function Take(cfg: Config, h: Heap, slot: Slot, need: nat): (r: AllocResult)
    requires ValidConfig(cfg) && |h.lists| == cfg.nLists
    requires slot.bucket < |h.lists| && slot.pos < |h.lists[slot.bucket]|
    requires Fits(h.blocks, h.lists[slot.bucket][slot.pos], need)
    requires RightOf(h.blocks, h.lists[slot.bucket][slot.pos]) in h.blocks
    requires need % 8 == 0 && need >= cfg.allocHeaderSize + 8
    ensures r.ptr.Some?
    ensures HeaderOf(cfg, r.ptr.value) in r.heap.blocks
    ensures r.heap.blocks[HeaderOf(cfg, r.ptr.value)].state == Allocated
    ensures r.heap.blocks[HeaderOf(cfg, r.ptr.value)].size >= need
  {
    var o := h.lists[slot.bucket][slot.pos];
    var unlinked := RemoveAt(h.lists, slot.bucket, slot.pos);
    var leftover := h.blocks[o].size - need;
    if leftover >= cfg.headerSize then
      var blocks := SplitBlocks(h.blocks, o, leftover, need);
      AllocResult(Heap(blocks, Push(unlinked, RemainderBucket(cfg, leftover), o)),
                  Some(o + leftover + cfg.allocHeaderSize))
    else
      AllocResult(Heap(SetState(h.blocks, o, Allocated), unlinked),
                  Some(o + cfg.allocHeaderSize))
  }

  /** `allocate_object(raw_size)`; running out of free blocks returns NULL
      where arena growth would be called. */
  function Allocate(cfg: Config, h: Heap, raw: nat): (r: AllocResult)
    requires ValidConfig(cfg) && WellFormed(cfg, h)
    ensures raw == 0 ==> r.ptr.None?
    ensures r.ptr.None? ==> r.heap == h
    ensures raw > 0 ==>
      (r.ptr.None? <==> NoFitBetween(h.blocks, h.lists, ActualSize(cfg, raw), StartBucket(cfg, raw), cfg.nLists))
    ensures r.ptr.Some? ==>
      && HeaderOf(cfg, r.ptr.value) in r.heap.blocks
      && r.heap.blocks[HeaderOf(cfg, r.ptr.value)].state == Allocated
      && r.heap.blocks[HeaderOf(cfg, r.ptr.value)].size >= raw + cfg.allocHeaderSize
  {
    if raw == 0 then AllocResult(h, None)
    else
      var need := ActualSize(cfg, raw);
      match SearchFrom(h.blocks, h.lists, need, StartBucket(cfg, raw))
      case None => AllocResult(h, None)
      case Some(slot) =>
        WellFormedListedNodesOk(cfg, h);
        Take(cfg, h, slot, need)
  }

  /** The shared setting of the split lemmas: a free block o of size leftover + need. */
  ghost predicate SplitSetting(cfg: Config, b: Blocks, o: int, leftover: nat, need: nat)
  {
    && ValidConfig(cfg)
    && BlocksOk(cfg, b)
    && IsFree(b, o)
    && b[o].size == leftover + need
    && leftover >= cfg.headerSize
    && need % 8 == 0 && need >= cfg.allocHeaderSize + 8
  }

  lemma SplitFacts(cfg: Config, b: Blocks, o: int, leftover: nat, need: nat)
    requires SplitSetting(cfg, b, o, leftover, need)
    ensures RightOf(b, o) in b
    ensures o + leftover !in b
    ensures forall p :: p in b && p > o ==> p >= RightOf(b, o)
    ensures forall p {:trigger RightOf(b, p)} :: p in b && p < o ==> RightOf(b, p) <= o
  {
    assert RightOf(b, o) in b;
    if o + leftover in b {
      assert Inside(b, o, o + leftover);
    }
    forall p | p in b && p > o
      ensures p >= RightOf(b, o)
    {
      assert !Inside(b, o, p);
    }
    forall p | p in b && p < o
      ensures RightOf(b, p) <= o
    {
      assert !Inside(b, p, o);
    }
  }

  /** Reading a block after the split: only o, o + leftover and the right neighbour differ. */
  lemma SplitLookup(b: Blocks, o: int, leftover: nat, need: nat, x: int)
    requires o in b && RightOf(b, o) in b
    requires b[o].size == leftover + need && leftover > 0 && need > 0
    ensures var r := SplitBlocks(b, o, leftover, need);
      && (x in r <==> x in b || x == o + leftover)
      && (x == o ==> r[x] == Block(leftover, b[o].leftSize, b[o].state))
      && (x == o + leftover ==> r[x] == Block(need, leftover, Allocated))
      && (x == RightOf(b, o) ==> r[x] == b[x].(leftSize := need))
      && (x in b && x != o && x != o + leftover && x != RightOf(b, o) ==> r[x] == b[x])
  {
  }

  lemma SplitSizes(cfg: Config, b: Blocks, o: int, leftover: nat, need: nat)
    requires SplitSetting(cfg, b, o, leftover, need)
    ensures RightOf(b, o) in b
    ensures SizesOk(cfg, SplitBlocks(b, o, leftover, need))
  {
    SplitFacts(cfg, b, o, leftover, need);
    var r := SplitBlocks(b, o, leftover, need);
    forall x | x in r
      ensures r[x].size > 0
      ensures r[x].state != Fencepost ==> r[x].size % 8 == 0 && r[x].size >= cfg.allocHeaderSize + 8
    {
      SplitLookup(b, o, leftover, need, x);
    }
  }

  lemma SplitDisjoint(cfg: Config, b: Blocks, o: int, leftover: nat, need: nat)
    requires SplitSetting(cfg, b, o, leftover, need)
    ensures RightOf(b, o) in b
    ensures Disjoint(SplitBlocks(b, o, leftover, need))
  {
    SplitFacts(cfg, b, o, leftover, need);
    var r := SplitBlocks(b, o, leftover, need);
    var m, e := o + leftover, RightOf(b, o);
    forall x, y | x in r && y in r
      ensures !Inside(r, x, y)
    {
      SplitLookup(b, o, leftover, need, x);
      SplitLookup(b, o, leftover, need, y);
      if x == o || x == m {
        assert y != m ==> y in b;
      } else {
        assert x in b && r[x].size == b[x].size;
        if x < o {
          assert RightOf(b, x) <= o;
        }
        if y != m {
          assert !Inside(b, x, y);
        }
      }
    }
  }

  lemma SplitNeighbours(cfg: Config, b: Blocks, o: int, leftover: nat, need: nat)
    requires SplitSetting(cfg, b, o, leftover, need)
    ensures RightOf(b, o) in b
    ensures HasNeighbours(SplitBlocks(b, o, leftover, need))
    ensures TagsOk(SplitBlocks(b, o, leftover, need))
  {
    SplitFacts(cfg, b, o, leftover, need);
    var r := SplitBlocks(b, o, leftover, need);
    var m, e := o + leftover, RightOf(b, o);
    forall x | x in r && r[x].state != Fencepost
      ensures RightOf(r, x) in r
      ensures LeftOf(r, x) in r && r[LeftOf(r, x)].size == r[x].leftSize
    {
      SplitLookup(b, o, leftover, need, x);
      if x == o {
        assert LeftOf(b, o) in b;
        SplitLookup(b, o, leftover, need, LeftOf(b, o));
      } else if x == m {
        SplitLookup(b, o, leftover, need, o);
      } else {
        assert RightOf(b, x) in b && LeftOf(b, x) in b;
        SplitLookup(b, o, leftover, need, RightOf(b, x));
        SplitLookup(b, o, leftover, need, LeftOf(b, x));
        if x != e {
          assert LeftOf(b, x) != o by {
            if LeftOf(b, x) == o {
              EndingAtIsLeftOf(b, o, x);
            }
          }
        }
      }
    }
    forall x | x in r && RightOf(r, x) in r
      ensures r[RightOf(r, x)].leftSize == r[x].size
    {
      SplitLookup(b, o, leftover, need, x);
      if x != o && x != m {
        var y := RightOf(b, x);
        assert y == RightOf(r, x);
        SplitLookup(b, o, leftover, need, y);
        if x < o {
          assert y <= o;
        } else {
          assert x >= e && y > e;
        }
      }
    }
  }

  /** No free block of the split heap is followed by a free block. */
  lemma SplitCoalescedAt(cfg: Config, b: Blocks, o: int, leftover: nat, need: nat, x: int)
    requires SplitSetting(cfg, b, o, leftover, need)
    requires RightOf(b, o) in b
    requires IsFree(SplitBlocks(b, o, leftover, need), x)
    ensures RightOf(SplitBlocks(b, o, leftover, need), x) in SplitBlocks(b, o, leftover, need)
      ==> !IsFree(SplitBlocks(b, o, leftover, need), RightOf(SplitBlocks(b, o, leftover, need), x))
  {
    SplitFacts(cfg, b, o, leftover, need);
    var r := SplitBlocks(b, o, leftover, need);
    var m, e := o + leftover, RightOf(b, o);
    SplitLookup(b, o, leftover, need, x);
    SplitLookup(b, o, leftover, need, e);
    assert !IsFree(b, e);
    if x != o {
      assert x != m;
      assert x in b;
      assert x != e;
      assert r[x] == b[x] && IsFree(b, x);
      var y := RightOf(b, x);
      assert y in b && !IsFree(b, y);
      assert RightOf(r, x) == y;
      SplitLookup(b, o, leftover, need, y);
      if x < o {
        assert y <= o;
      } else {
        assert x > e && y > e;
      }
    }
  }

  lemma SplitCoalesced(cfg: Config, b: Blocks, o: int, leftover: nat, need: nat)
    requires SplitSetting(cfg, b, o, leftover, need)
    ensures RightOf(b, o) in b
    ensures Coalesced(SplitBlocks(b, o, leftover, need))
    ensures FreeOffsets(SplitBlocks(b, o, leftover, need)) == FreeOffsets(b)
  {
    SplitFacts(cfg, b, o, leftover, need);
    var r := SplitBlocks(b, o, leftover, need);
    forall x | IsFree(r, x) && RightOf(r, x) in r
      ensures !IsFree(r, RightOf(r, x))
    {
      SplitCoalescedAt(cfg, b, o, leftover, need, x);
    }
    forall x
      ensures x in FreeOffsets(r) <==> x in FreeOffsets(b)
    {
      SplitLookup(b, o, leftover, need, x);
    }
  }

  lemma SplitKeepsBlocksOk(cfg: Config, b: Blocks, o: int, leftover: nat, need: nat)
    requires SplitSetting(cfg, b, o, leftover, need)
    ensures RightOf(b, o) in b
    ensures BlocksOk(cfg, SplitBlocks(b, o, leftover, need))
    ensures FreeOffsets(SplitBlocks(b, o, leftover, need)) == FreeOffsets(b)
  {
    SplitSizes(cfg, b, o, leftover, need);
    SplitDisjoint(cfg, b, o, leftover, need);
    SplitNeighbours(cfg, b, o, leftover, need);
    SplitCoalesced(cfg, b, o, leftover, need);
  }

  /** Changing only a block's state. */
  function SetState(b: Blocks, o: int, st: BlockState): (r: Blocks)
    requires o in b
    ensures r.Keys == b.Keys
    ensures forall x :: x in r ==> r[x].size == b[x].size && r[x].leftSize == b[x].leftSize
    ensures forall x :: x in r && x != o ==> r[x].state == b[x].state
    ensures r[o].state == st
  {
    b[o := b[o].(state := st)]
  }

  lemma SetStateGeometry(cfg: Config, b: Blocks, o: int, st: BlockState)
    requires o in b && b[o].state != Fencepost && st != Fencepost
    requires SizesOk(cfg, b) && Disjoint(b) && HasNeighbours(b) && TagsOk(b)
    ensures var r := SetState(b, o, st);
      SizesOk(cfg, r) && Disjoint(r) && HasNeighbours(r) && TagsOk(r)
  {
    var r := SetState(b, o, st);
    forall x, y | x in r && y in r
      ensures !Inside(r, x, y)
    {
      assert !Inside(b, x, y);
    }
    forall x | x in r && r[x].state != Fencepost
      ensures RightOf(r, x) in r
      ensures LeftOf(r, x) in r && r[LeftOf(r, x)].size == r[x].leftSize
    {
      assert RightOf(b, x) in b && LeftOf(b, x) in b;
    }
    forall x | x in r && RightOf(r, x) in r
      ensures r[RightOf(r, x)].leftSize == r[x].size
    {
      assert RightOf(r, x) == RightOf(b, x);
    }
  }

  /** Allocating a free block whole only changes its state. */
  lemma WholeKeepsBlocksOk(cfg: Config, b: Blocks, o: int)
    requires ValidConfig(cfg) && BlocksOk(cfg, b) && IsFree(b, o)
    ensures BlocksOk(cfg, SetState(b, o, Allocated))
    ensures FreeOffsets(SetState(b, o, Allocated)) == FreeOffsets(b) - {o}
  {
    SetStateGeometry(cfg, b, o, Allocated);
    var r := SetState(b, o, Allocated);
    forall x | IsFree(r, x) && RightOf(r, x) in r
      ensures !IsFree(r, RightOf(r, x))
    {
      assert IsFree(b, x) && RightOf(r, x) == RightOf(b, x);
    }
  }

  /** Split case: the remainder is relisted, so the free set is unchanged. */
  lemma SplitKeepsWellFormed(cfg: Config, h: Heap, i: nat, j: nat, o: int, leftover: nat, need: nat)
    requires ValidConfig(cfg) && WellFormed(cfg, h)
    requires i < |h.lists| && j < |h.lists[i]| && o == h.lists[i][j]
    requires o in h.blocks && h.blocks[o].size == leftover + need && leftover >= cfg.headerSize
    requires need % 8 == 0 && need >= cfg.allocHeaderSize + 8
    ensures RightOf(h.blocks, o) in h.blocks
    ensures WellFormed(cfg, Heap(SplitBlocks(h.blocks, o, leftover, need),
                                 Push(RemoveAt(h.lists, i, j), RemainderBucket(cfg, leftover), o)))
  {
    ListedIsFree(cfg, h, i, j);
    SplitKeepsBlocksOk(cfg, h.blocks, o, leftover, need);
    SplitLookup(h.blocks, o, leftover, need, o + leftover);
    var unlinked := RemoveAt(h.lists, i, j);
    RemoveAtListed(h.lists, i, j);
    PushListed(unlinked, RemainderBucket(cfg, leftover), o);
    var lists := Push(unlinked, RemainderBucket(cfg, leftover), o);
    assert Listed(lists) == Listed(h.lists);
  }

  /** Whole case: the block leaves both the free set and the lists. */
  lemma WholeKeepsWellFormed(cfg: Config, h: Heap, i: nat, j: nat, o: int)
    requires ValidConfig(cfg) && WellFormed(cfg, h)
    requires i < |h.lists| && j < |h.lists[i]| && o == h.lists[i][j]
    ensures o in h.blocks
    ensures WellFormed(cfg, Heap(SetState(h.blocks, o, Allocated), RemoveAt(h.lists, i, j)))
  {
    ListedIsFree(cfg, h, i, j);
    WholeKeepsBlocksOk(cfg, h.blocks, o);
    var unlinked := RemoveAt(h.lists, i, j);
    RemoveAtListed(h.lists, i, j);
    var f := FreeOffsets(h.blocks);
    assert o in f;
    forall x
      ensures Listed(unlinked)[x] == multiset(f - {o})[x]
    {
      assert Listed(unlinked)[x] + multiset{o}[x] == multiset(f)[x];
    }
    assert Listed(unlinked) == multiset(f - {o});
  }

  /** Taking a node and splitting it keeps the invariants. */
  lemma TakeSplitKeepsWellFormed(cfg: Config, h: Heap, slot: Slot, need: nat)
    requires ValidConfig(cfg) && WellFormed(cfg, h)
    requires slot.bucket < |h.lists| && slot.pos < |h.lists[slot.bucket]|
    requires Fits(h.blocks, h.lists[slot.bucket][slot.pos], need)
    requires need % 8 == 0 && need >= cfg.allocHeaderSize + 8
    requires h.blocks[h.lists[slot.bucket][slot.pos]].size - need >= cfg.headerSize
    ensures RightOf(h.blocks, h.lists[slot.bucket][slot.pos]) in h.blocks
    ensures WellFormed(cfg, Take(cfg, h, slot, need).heap)
  {
    ListedIsFree(cfg, h, slot.bucket, slot.pos);
    var r := Take(cfg, h, slot, need);
    var o := h.lists[slot.bucket][slot.pos];
    var leftover := h.blocks[o].size - need;
    assert r.heap.blocks == SplitBlocks(h.blocks, o, leftover, need);
    assert r.heap.lists == Push(RemoveAt(h.lists, slot.bucket, slot.pos), RemainderBucket(cfg, leftover), o);
    assert r.ptr.value == o + leftover + cfg.allocHeaderSize;
    SplitKeepsWellFormed(cfg, h, slot.bucket, slot.pos, o, leftover, need);
  }

  /** Taking a node whole keeps the invariants. */
  lemma TakeWholeKeepsWellFormed(cfg: Config, h: Heap, slot: Slot, need: nat)
    requires ValidConfig(cfg) && WellFormed(cfg, h)
    requires slot.bucket < |h.lists| && slot.pos < |h.lists[slot.bucket]|
    requires Fits(h.blocks, h.lists[slot.bucket][slot.pos], need)
    requires need % 8 == 0 && need >= cfg.allocHeaderSize + 8
    requires h.blocks[h.lists[slot.bucket][slot.pos]].size - need < cfg.headerSize
    ensures RightOf(h.blocks, h.lists[slot.bucket][slot.pos]) in h.blocks
    ensures WellFormed(cfg, Take(cfg, h, slot, need).heap)
  {
    ListedIsFree(cfg, h, slot.bucket, slot.pos);
    var r := Take(cfg, h, slot, need);
    var o := h.lists[slot.bucket][slot.pos];
    assert r.heap.blocks == SetState(h.blocks, o, Allocated);
    assert r.heap.lists == RemoveAt(h.lists, slot.bucket, slot.pos);
    assert r.ptr.value == o + cfg.allocHeaderSize;
    WholeKeepsWellFormed(cfg, h, slot.bucket, slot.pos, o);
  }

  /** After taking a node the invariants hold again. */
  lemma TakeKeepsWellFormed(cfg: Config, h: Heap, slot: Slot, need: nat)
    requires ValidConfig(cfg) && WellFormed(cfg, h)
    requires slot.bucket < |h.lists| && slot.pos < |h.lists[slot.bucket]|
    requires Fits(h.blocks, h.lists[slot.bucket][slot.pos], need)
    requires need % 8 == 0 && need >= cfg.allocHeaderSize + 8
    ensures RightOf(h.blocks, h.lists[slot.bucket][slot.pos]) in h.blocks
    ensures WellFormed(cfg, Take(cfg, h, slot, need).heap)
  {
    ListedIsFree(cfg, h, slot.bucket, slot.pos);
    if h.blocks[h.lists[slot.bucket][slot.pos]].size - need >= cfg.headerSize {
      TakeSplitKeepsWellFormed(cfg, h, slot, need);
    } else {
      TakeWholeKeepsWellFormed(cfg, h, slot, need);
    }
  }

  /** `allocate_object` preserves every heap invariant; with `NotFreeNotListed`
      this also means a returned block is linked on no free list. */
  lemma AllocateKeepsWellFormed(cfg: Config, h: Heap, raw: nat)
    requires ValidConfig(cfg) && WellFormed(cfg, h)
    ensures WellFormed(cfg, Allocate(cfg, h, raw).heap)
  {
    WellFormedListedNodesOk(cfg, h);
    var need := ActualSize(cfg, raw);
    if raw > 0 && SearchFrom(h.blocks, h.lists, need, StartBucket(cfg, raw)).Some? {
      var slot := SearchFrom(h.blocks, h.lists, need, StartBucket(cfg, raw)).value;
      assert Allocate(cfg, h, raw) == Take(cfg, h, slot, need);
      TakeKeepsWellFormed(cfg, h, slot, need);
    } else {
      assert Allocate(cfg, h, raw) == AllocResult(h, None);
    }
  }

  /** The block handed out (lines 53-55, 90) is allocated and linked on no
      free list of the new heap. */
  lemma AllocatedBlockUnlisted(cfg: Config, h: Heap, raw: nat)
    requires ValidConfig(cfg) && WellFormed(cfg, h)
    ensures var r := Allocate(cfg, h, raw);
      r.ptr.Some? ==> forall i :: 0 <= i < |r.heap.lists| ==> HeaderOf(cfg, r.ptr.value) !in r.heap.lists[i]
  {
    AllocateKeepsWellFormed(cfg, h, raw);
    var r := Allocate(cfg, h, raw);
    if r.ptr.Some? {
      NotFreeNotListed(cfg, r.heap, HeaderOf(cfg, r.ptr.value));
    }
  }

  /** A request that reaches the search takes the first-fit node. */
  lemma AllocateTakesFirstFit(cfg: Config, h: Heap, raw: nat, i: nat, j: nat)
    requires ValidConfig(cfg) && WellFormed(cfg, h) && raw > 0
    requires IsFirstFit(h.blocks, h.lists, ActualSize(cfg, raw), StartBucket(cfg, raw), i, j)
    ensures h.blocks[h.lists[i][j]].size >= ActualSize(cfg, raw)
    ensures RightOf(h.blocks, h.lists[i][j]) in h.blocks
    ensures Allocate(cfg, h, raw) == Take(cfg, h, Slot(i, j), ActualSize(cfg, raw))
  {
    ListedIsFree(cfg, h, i, j);
    var need := ActualSize(cfg, raw);
    var slot := SearchFrom(h.blocks, h.lists, need, StartBucket(cfg, raw));
    if slot.Some? {
      FirstFitUnique(h.blocks, h.lists, need, StartBucket(cfg, raw), i, j, slot.value.bucket, slot.value.pos);
    }
  }

  /** The split case of taking a node. */
  lemma TakeSplit(cfg: Config, h: Heap, slot: Slot, need: nat, o: int, leftover: nat)
    requires ValidConfig(cfg) && |h.lists| == cfg.nLists
    requires slot.bucket < |h.lists| && slot.pos < |h.lists[slot.bucket]| && o == h.lists[slot.bucket][slot.pos]
    requires need % 8 == 0 && need >= cfg.allocHeaderSize + 8
    requires o in h.blocks && RightOf(h.blocks, o) in h.blocks
    requires h.blocks[o].size == leftover + need && leftover >= cfg.headerSize
    ensures Take(cfg, h, slot, need).ptr == Some(o + leftover + cfg.allocHeaderSize)
    ensures Take(cfg, h, slot, need).heap.blocks == SplitBlocks(h.blocks, o, leftover, need)
    ensures Take(cfg, h, slot, need).heap.lists
         == Push(RemoveAt(h.lists, slot.bucket, slot.pos), RemainderBucket(cfg, leftover), o)
  {
  }

  /** Split outcome (lines 58-86): the first-fit block is split by
      `SplitBlocks` (its geometry is `SplitLookup`), the allocated block is
      the upper part, and the free remainder, unlinked from its old bucket,
      is pushed onto the bucket of its new size. */
  lemma AllocateSplitOutcome(cfg: Config, h: Heap, raw: nat, i: nat, j: nat, o: int, need: nat, leftover: nat)
    requires ValidConfig(cfg) && WellFormed(cfg, h) && raw > 0
    requires need == ActualSize(cfg, raw)
    requires IsFirstFit(h.blocks, h.lists, need, StartBucket(cfg, raw), i, j) && o == h.lists[i][j]
    requires o in h.blocks && h.blocks[o].size == leftover + need && leftover >= cfg.headerSize
    ensures RightOf(h.blocks, o) in h.blocks && o + leftover !in h.blocks && h.blocks[o].state == Unallocated
    ensures Allocate(cfg, h, raw).ptr == Some(o + leftover + cfg.allocHeaderSize)
    ensures Allocate(cfg, h, raw).heap.blocks == SplitBlocks(h.blocks, o, leftover, need)
    ensures Allocate(cfg, h, raw).heap.lists
         == Push(RemoveAt(h.lists, i, j), RemainderBucket(cfg, leftover), o)
  {
    AllocateTakesFirstFit(cfg, h, raw, i, j);
    ListedIsFree(cfg, h, i, j);
    TakeSplit(cfg, h, Slot(i, j), need, o, leftover);
    if o + leftover in h.blocks {
      assert Inside(h.blocks, o, o + leftover);
    }
  }

  /** Whole-block outcome: when the leftover cannot hold a free header the
      chosen block is allocated unsplit and only unlinked from its bucket. */
  lemma AllocateWholeOutcome(cfg: Config, h: Heap, raw: nat, i: nat, j: nat, o: int)
    requires ValidConfig(cfg) && WellFormed(cfg, h) && raw > 0
    requires IsFirstFit(h.blocks, h.lists, ActualSize(cfg, raw), StartBucket(cfg, raw), i, j) && o == h.lists[i][j]
    requires o in h.blocks && h.blocks[o].size < ActualSize(cfg, raw) + cfg.headerSize
    ensures Allocate(cfg, h, raw).ptr == Some(o + cfg.allocHeaderSize)
    ensures Allocate(cfg, h, raw).heap.blocks.Keys == h.blocks.Keys
    ensures Allocate(cfg, h, raw).heap.blocks[o] == h.blocks[o].(state := Allocated)
    ensures h.blocks[o].size >= ActualSize(cfg, raw)
    ensures forall x :: x in h.blocks && x != o ==> Allocate(cfg, h, raw).heap.blocks[x] == h.blocks[x]
    ensures Allocate(cfg, h, raw).heap.lists[i] == h.lists[i][..j] + h.lists[i][j + 1..]
    ensures forall k :: 0 <= k < |h.lists| && k != i ==> Allocate(cfg, h, raw).heap.lists[k] == h.lists[k]
  {
    AllocateTakesFirstFit(cfg, h, raw, i, j);
    var r := Allocate(cfg, h, raw);
    assert r.heap.blocks == SetState(h.blocks, o, Allocated);
    assert r.heap.lists == RemoveAt(h.lists, i, j);
  }
}

=== FILE: deallocate.dfy ===
/** `deallocate_object`: mark the block free, merge it with a free left
    neighbour and then a free right neighbour, fix the boundary tag of the
    block after the merged run, and push the merged block onto the bucket of
    its size. */
module Deallocate {
  import opened Wrappers
  import opened FreeLists
  import opened Heap
  import opened SizeClass

  /** What `deallocate_object` does with a pointer: it returns normally, or
      it reports a double free and aborts. */
  datatype FreeResult = Freed(heap: Heap) | DoubleFree

  /** A run of adjacent blocks becomes one free block from `start` up to the
      block at `end`; the headers in `absorbed` disappear and the block at
      `end` gets the merged size as its boundary tag. */
  function MergeBlocks(b: Blocks, start: int, end: int, absorbed: set<int>): (r: Blocks)
    requires start in b && end in b && start < end
    requires start !in absorbed && end !in absorbed
    ensures r.Keys == b.Keys - absorbed
    ensures r[start] == Block(end - start, b[start].leftSize, Unallocated)
    ensures r[end] == b[end].(leftSize := end - start)
    ensures forall x :: x in r && x != start && x != end ==> r[x] == b[x]
  {
    (b - absorbed)[start := Block(end - start, b[start].leftSize, Unallocated)]
                  [end := b[end].(leftSize := end - start)]
  }

  /** The conditions under which merging the run [start, end) keeps the block
      invariants: the run is exactly `start` plus the absorbed blocks, it is
      aligned, and neither block bordering it is free. */
  ghost predicate MergeSetting(cfg: Config, b: Blocks, start: int, end: int, absorbed: set<int>)
  {
    && ValidConfig(cfg)
    && BlocksOk(cfg, b)
    && start in b && end in b && start < end
    && start !in absorbed && end !in absorbed
    && b[start].state != Fencepost
    && (end - start) % 8 == 0
    && RightOf(b, start) <= end
    && (forall a :: a in absorbed ==> a in b && start < a < end && RightOf(b, a) <= end)
    && (forall p :: p in b && start < p < end ==> p in absorbed)
    && !IsFree(b, end)
    && !IsFree(b, LeftOf(b, start))
  }

  /** A block outside the run ends at or before its start, or begins at or after its end. */
  lemma MergeOutside(cfg: Config, b: Blocks, start: int, end: int, absorbed: set<int>, x: int)
    requires MergeSetting(cfg, b, start, end, absorbed)
    requires x in b && x != start && x !in absorbed
    ensures x < start ==> RightOf(b, x) <= start
    ensures x > start ==> x >= end
  {
    if x < start {
      assert !Inside(b, x, start);
    }
  }

  lemma MergeSizes(cfg: Config, b: Blocks, start: int, end: int, absorbed: set<int>)
    requires MergeSetting(cfg, b, start, end, absorbed)
    ensures SizesOk(cfg, MergeBlocks(b, start, end, absorbed))
  {
    var r := MergeBlocks(b, start, end, absorbed);
    assert RightOf(b, start) <= end;
    forall x | x in r
      ensures r[x].size > 0
      ensures r[x].state != Fencepost ==> r[x].size % 8 == 0 && r[x].size >= cfg.allocHeaderSize + 8
    {
      assert x in b;
    }
  }

  lemma MergeDisjoint(cfg: Config, b: Blocks, start: int, end: int, absorbed: set<int>)
    requires MergeSetting(cfg, b, start, end, absorbed)
    ensures Disjoint(MergeBlocks(b, start, end, absorbed))
  {
    var r := MergeBlocks(b, start, end, absorbed);
    forall x, y | x in r && y in r
      ensures !Inside(r, x, y)
    {
      assert x in b && y in b;
      if x != start {
        assert r[x].size == b[x].size;
        assert !Inside(b, x, y);
      }
    }
  }

  lemma MergeNeighbours(cfg: Config, b: Blocks, start: int, end: int, absorbed: set<int>)
    requires MergeSetting(cfg, b, start, end, absorbed)
    ensures HasNeighbours(MergeBlocks(b, start, end, absorbed))
    ensures TagsOk(MergeBlocks(b, start, end, absorbed))
  {
    var r := MergeBlocks(b, start, end, absorbed);
    assert LeftOf(b, start) in b;
    MergeOutside(cfg, b, start, end, absorbed, LeftOf(b, start));
    forall x | x in r && r[x].state != Fencepost
      ensures RightOf(r, x) in r
      ensures LeftOf(r, x) in r && r[LeftOf(r, x)].size == r[x].leftSize
    {
      if x == end {
        assert RightOf(b, end) in b && RightOf(r, end) == RightOf(b, end);
        assert RightOf(b, end) !in absorbed;
        assert LeftOf(r, x) == start;
      } else if x != start {
        assert x in b && r[x] == b[x];
        var y, z := RightOf(b, x), LeftOf(b, x);
        assert y in b && z in b;
        MergeOutside(cfg, b, start, end, absorbed, x);
        assert y !in absorbed;
        assert RightOf(b, z) == x;
        assert z != start && z !in absorbed;
        assert r[z].size == b[z].size;
      }
    }
    forall x | x in r && RightOf(r, x) in r
      ensures r[RightOf(r, x)].leftSize == r[x].size
    {
      if x != start {
        assert x in b && r[x].size == b[x].size;
        var y := RightOf(b, x);
        assert y == RightOf(r, x) && y in b;
        MergeOutside(cfg, b, start, end, absorbed, x);
        if y == start {
          assert b[y].leftSize == b[x].size;
        }
      }
    }
  }

  lemma MergeCoalesced(cfg: Config, b: Blocks, start: int, end: int, absorbed: set<int>)
    requires MergeSetting(cfg, b, start, end, absorbed)
    ensures Coalesced(MergeBlocks(b, start, end, absorbed))
    ensures FreeOffsets(MergeBlocks(b, start, end, absorbed)) == FreeOffsets(b) - absorbed + {start}
  {
    var r := MergeBlocks(b, start, end, absorbed);
    assert LeftOf(b, start) in b;
    forall x | IsFree(r, x) && RightOf(r, x) in r
      ensures !IsFree(r, RightOf(r, x))
    {
      if x != start {
        assert x in b && r[x] == b[x];
        var y := RightOf(b, x);
        assert y == RightOf(r, x) && y in b;
        MergeOutside(cfg, b, start, end, absorbed, x);
        if y == start {
          EndingAtIsLeftOf(b, x, start);
        } else {
          assert IsFree(b, x);
        }
      }
    }
    forall x
      ensures x in FreeOffsets(r) <==> x in FreeOffsets(b) - absorbed + {start}
    {
    }
  }

  /** Merging a run that satisfies `MergeSetting` keeps every block invariant,
      and the free blocks become the old ones minus the absorbed headers plus
      the merged block. */
  lemma MergeKeepsBlocksOk(cfg: Config, b: Blocks, start: int, end: int, absorbed: set<int>)
    requires MergeSetting(cfg, b, start, end, absorbed)
    ensures BlocksOk(cfg, MergeBlocks(b, start, end, absorbed))
    ensures FreeOffsets(MergeBlocks(b, start, end, absorbed)) == FreeOffsets(b) - absorbed + {start}
  {
    MergeSizes(cfg, b, start, end, absorbed);
    MergeDisjoint(cfg, b, start, end, absorbed);
    MergeNeighbours(cfg, b, start, end, absorbed);
    MergeCoalesced(cfg, b, start, end, absorbed);
  }

  /** How a release coalesces (lines 120-146): whether the left and the right
      neighbour are merged in, and the run [start, end) that results. */
  datatype Run = Run(mergeLeft: bool, mergeRight: bool, start: int, end: int)

  /** The source's pointer arithmetic: the block starts at the left
      neighbour when that one is free, the right neighbour is found at the
      end of the (possibly already merged) block, and it is merged in when free. */
  function Coalescing(b: Blocks, o: int): (run: Run)
    requires o in b && LeftOf(b, o) in b && b[LeftOf(b, o)].size == b[o].leftSize
    requires RightOf(b, o) in b
    requires IsFree(b, RightOf(b, o)) ==> RightOf(b, RightOf(b, o)) in b
    ensures run.mergeLeft == IsFree(b, LeftOf(b, o)) && run.mergeRight == IsFree(b, RightOf(b, o))
    ensures run.start == if run.mergeLeft then LeftOf(b, o) else o
    ensures run.end == if run.mergeRight then RightOf(b, RightOf(b, o)) else RightOf(b, o)
    ensures run.end - run.start
         == (if run.mergeLeft then b[LeftOf(b, o)].size else 0) + b[o].size
          + (if run.mergeRight then b[RightOf(b, o)].size else 0)
  {
    var left := LeftOf(b, o);
    var mergeLeft := IsFree(b, left);
    var start := if mergeLeft then left else o;
    var size := if mergeLeft then b[left].size + b[o].size else b[o].size;
    var right := start + size;
    assert right == RightOf(b, o);
    var mergeRight := IsFree(b, right);
    var total := if mergeRight then size + b[right].size else size;
    Run(mergeLeft, mergeRight, start, start + total)
  }

  /** The headers that disappear in a merge: the freed block's own when it
      joins its left neighbour, and the right neighbour's when that joins. */
  function Absorbed(b: Blocks, o: int, run: Run): (r: set<int>)
    requires o in b
    ensures r <= {o, RightOf(b, o)}
    ensures b[o].size > 0 ==> (o in r <==> run.mergeLeft) && (RightOf(b, o) in r <==> run.mergeRight)
  {
    (if run.mergeLeft then {o} else {}) + (if run.mergeRight then {RightOf(b, o)} else {})
  }

  /** Lines 126-128 and 139-141: unlink the neighbours that are merged in. */
  function UnlinkMerged(lists: FreeLists, run: Run, left: int, right: int): (r: FreeLists)
    ensures |r| == |lists|
  {
    var lists' := if run.mergeLeft then Unlink(lists, left) else lists;
    if run.mergeRight then Unlink(lists', right) else lists'
  }

  /** Exactly the merged neighbours lose their list entries. */
  lemma UnlinkMergedListed(lists: FreeLists, run: Run, left: int, right: int, x: int)
    ensures Listed(UnlinkMerged(lists, run, left, right))[x]
         == if (run.mergeLeft && x == left) || (run.mergeRight && x == right) then 0 else Listed(lists)[x]
  {
    UnlinkListed(lists, left);
    var lists' := if run.mergeLeft then Unlink(lists, left) else lists;
    UnlinkListed(lists', right);
  }

  /** Lines 120-167 for an allocated block o: coalesce, retag, relist. */
  function Release(cfg: Config, h: Heap, o: int): (r: Heap)
    requires ValidConfig(cfg) && SizesOk(cfg, h.blocks) && HasNeighbours(h.blocks) && |h.lists| == cfg.nLists
    requires o in h.blocks && h.blocks[o].state == Allocated
    ensures |r.lists| == |h.lists|
    ensures r.blocks.Keys <= h.blocks.Keys
    ensures o in r.blocks ==> IsFree(r.blocks, o)
  {
    var b := h.blocks;
    assert LeftOf(b, o) in b && RightOf(b, o) in b;
    assert IsFree(b, RightOf(b, o)) ==> RightOf(b, RightOf(b, o)) in b;
    var run := Coalescing(b, o);
    Heap(MergeBlocks(b, run.start, run.end, Absorbed(b, o, run)),
         Push(UnlinkMerged(h.lists, run, LeftOf(b, o), RightOf(b, o)), FreedBucket(cfg, run.end - run.start), run.start))
  }

  /** `deallocate_object(p)`: NULL is ignored, a pointer whose block is
      already free is a double free, anything else is released. */
  function Deallocate(cfg: Config, h: Heap, p: Option<int>): (r: FreeResult)
    requires ValidConfig(cfg) && SizesOk(cfg, h.blocks) && HasNeighbours(h.blocks) && |h.lists| == cfg.nLists
    requires p.Some? ==>
      HeaderOf(cfg, p.value) in h.blocks && h.blocks[HeaderOf(cfg, p.value)].state != Fencepost
    ensures p.None? ==> r == Freed(h)
    ensures r.DoubleFree? <==> p.Some? && IsFree(h.blocks, HeaderOf(cfg, p.value))
  {
    match p
    case None => Freed(h)
    case Some(ptr) =>
      var o := HeaderOf(cfg, ptr);
      if h.blocks[o].state == Unallocated then DoubleFree
      else Freed(Release(cfg, h, o))
  }

  /** A block header strictly inside the run of a release is one of the
      absorbed headers. */
  lemma ReleaseRunInterior(cfg: Config, h: Heap, o: int, p: int)
    requires ValidConfig(cfg) && WellFormed(cfg, h)
    requires o in h.blocks && h.blocks[o].state == Allocated
    requires LeftOf(h.blocks, o) in h.blocks && RightOf(h.blocks, o) in h.blocks
    requires IsFree(h.blocks, RightOf(h.blocks, o)) ==> RightOf(h.blocks, RightOf(h.blocks, o)) in h.blocks
    requires p in h.blocks && Coalescing(h.blocks, o).start < p < Coalescing(h.blocks, o).end
    ensures p in Absorbed(h.blocks, o, Coalescing(h.blocks, o))
  {
    var b := h.blocks;
    var l, e := LeftOf(b, o), RightOf(b, o);
    assert RightOf(b, l) == o;
    assert !Inside(b, l, p) && !Inside(b, o, p) && !Inside(b, e, p);
  }

  /** The run a release coalesces satisfies `MergeSetting`. */
  lemma ReleaseRunOk(cfg: Config, h: Heap, o: int)
    requires ValidConfig(cfg) && WellFormed(cfg, h)
    requires o in h.blocks && h.blocks[o].state == Allocated
    ensures LeftOf(h.blocks, o) in h.blocks && RightOf(h.blocks, o) in h.blocks
    ensures IsFree(h.blocks, RightOf(h.blocks, o)) ==> RightOf(h.blocks, RightOf(h.blocks, o)) in h.blocks
    ensures MergeSetting(cfg, h.blocks, Coalescing(h.blocks, o).start, Coalescing(h.blocks, o).end,
                         Absorbed(h.blocks, o, Coalescing(h.blocks, o)))
  {
    var b := h.blocks;
    var l, e := LeftOf(b, o), RightOf(b, o);
    assert l in b && e in b;
    assert IsFree(b, e) ==> RightOf(b, e) in b;
    var run := Coalescing(b, o);
    forall p | p in b && run.start < p < run.end
      ensures p in Absorbed(b, o, run)
    {
      ReleaseRunInterior(cfg, h, o, p);
    }
    if run.mergeLeft {
      var z := LeftOf(b, l);
      assert z in b && RightOf(b, z) == l;
    }
    AlignedSum(if run.mergeLeft then b[l].size else 0, b[o].size, if run.mergeRight then b[e].size else 0);
  }

  lemma AlignedSum(x: int, y: int, z: int)
    requires x % 8 == 0 && y % 8 == 0 && z % 8 == 0
    ensures (x + y + z) % 8 == 0
  {
    assert x + y + z == 8 * (x / 8 + y / 8 + z / 8);
  }

  /** The neighbours a release looks at exist. */
  lemma ReleaseNeighbours(cfg: Config, b: Blocks, o: int)
    requires SizesOk(cfg, b) && HasNeighbours(b)
    requires o in b && b[o].state == Allocated
    ensures LeftOf(b, o) in b && b[LeftOf(b, o)].size == b[o].leftSize && RightOf(b, o) in b
    ensures IsFree(b, RightOf(b, o)) ==> RightOf(b, RightOf(b, o)) in b
    ensures LeftOf(b, o) < o < RightOf(b, o)
  {
  }

  /** The release of o, spelled out in terms of its run. */
  lemma ReleaseShape(cfg: Config, h: Heap, o: int, run: Run)
    requires ValidConfig(cfg) && SizesOk(cfg, h.blocks) && HasNeighbours(h.blocks) && |h.lists| == cfg.nLists
    requires o in h.blocks && h.blocks[o].state == Allocated
    requires LeftOf(h.blocks, o) in h.blocks && h.blocks[LeftOf(h.blocks, o)].size == h.blocks[o].leftSize
    requires RightOf(h.blocks, o) in h.blocks
    requires IsFree(h.blocks, RightOf(h.blocks, o)) ==> RightOf(h.blocks, RightOf(h.blocks, o)) in h.blocks
    requires run == Coalescing(h.blocks, o)
    ensures run.start in h.blocks && run.end in h.blocks && run.start < run.end
    ensures run.start !in Absorbed(h.blocks, o, run) && run.end !in Absorbed(h.blocks, o, run)
    ensures run.end - run.start >= cfg.allocHeaderSize + 8
    ensures Release(cfg, h, o)
         == Heap(MergeBlocks(h.blocks, run.start, run.end, Absorbed(h.blocks, o, run)),
                 Push(UnlinkMerged(h.lists, run, LeftOf(h.blocks, o), RightOf(h.blocks, o)),
                      FreedBucket(cfg, run.end - run.start), run.start))
  {
  }

  /** Merging changes the free set by the absorbed headers and the merged block only. */
  lemma MergeFreeOffsets(b: Blocks, start: int, end: int, absorbed: set<int>)
    requires start in b && end in b && start < end
    requires start !in absorbed && end !in absorbed
    ensures FreeOffsets(MergeBlocks(b, start, end, absorbed)) == FreeOffsets(b) - absorbed + {start}
  {
    var r := MergeBlocks(b, start, end, absorbed);
    forall x
      ensures x in FreeOffsets(r) <==> x in FreeOffsets(b) - absorbed + {start}
    {
    }
  }

  /** Releasing keeps the block invariants. */
  lemma ReleaseKeepsBlocksOk(cfg: Config, h: Heap, o: int)
    requires ValidConfig(cfg) && WellFormed(cfg, h)
    requires o in h.blocks && h.blocks[o].state == Allocated
    ensures BlocksOk(cfg, Release(cfg, h, o).blocks)
    ensures FreeOffsets(Release(cfg, h, o).blocks)
         == FreeOffsets(h.blocks) - Absorbed(h.blocks, o, Coalescing(h.blocks, o)) + {Coalescing(h.blocks, o).start}
  {
    ReleaseRunOk(cfg, h, o);
    ReleaseNeighbours(cfg, h.blocks, o);
    ReleaseShape(cfg, h, o, Coalescing(h.blocks, o));
    MergeKeepsBlocksOk(cfg, h.blocks, Coalescing(h.blocks, o).start, Coalescing(h.blocks, o).end,
                       Absorbed(h.blocks, o, Coalescing(h.blocks, o)));
  }

  /** The list bookkeeping of a release in isolation: when the listed
      multiset m was exactly the free set f, unlinking the merged free
      neighbours and pushing the merged block leaves exactly the new free set. */
  lemma RecountExact(m: multiset<int>, m': multiset<int>, f: set<int>, run: Run, left: int, o: int, right: int)
    requires m == multiset(f)
    requires o !in f && left < o < right
    requires run.mergeLeft ==> left in f
    requires run.start == if run.mergeLeft then left else o
    requires forall x :: m'[x] == (if x == run.start then 1 else 0)
                                + (if (run.mergeLeft && x == left) || (run.mergeRight && x == right) then 0 else m[x])
    ensures m' == multiset(f - ((if run.mergeLeft then {o} else {}) + (if run.mergeRight then {right} else {})) + {run.start})
  {
    var absorbed := (if run.mergeLeft then {o} else {}) + (if run.mergeRight then {right} else {});
    var f' := f - absorbed + {run.start};
    forall x
      ensures m'[x] == multiset(f')[x]
    {
      assert x in absorbed <==> (run.mergeLeft && x == o) || (run.mergeRight && x == right);
      assert x in f' <==> x == run.start || (x in f && x !in absorbed);
      assert m[x] == if x in f then 1 else 0;
    }
  }

  /** The list side of a release, apart from the heap: if the lists held
      exactly the free set f, then after unlinking the merged neighbours and
      pushing the merged block they hold exactly the new free set. */
  lemma RelistExact(lists: FreeLists, bucket: nat, f: set<int>, run: Run, left: int, o: int, right: int)
    requires Listed(lists) == multiset(f)
    requires bucket < |lists|
    requires o !in f && left < o < right
    requires run.mergeLeft ==> left in f
    requires run.start == if run.mergeLeft then left else o
    ensures Listed(Push(UnlinkMerged(lists, run, left, right), bucket, run.start))
         == multiset(f - ((if run.mergeLeft then {o} else {}) + (if run.mergeRight then {right} else {})) + {run.start})
  {
    var lists' := Push(UnlinkMerged(lists, run, left, right), bucket, run.start);
    forall x
      ensures Listed(lists')[x] == (if x == run.start then 1 else 0)
        + (if (run.mergeLeft && x == left) || (run.mergeRight && x == right) then 0 else Listed(lists)[x])
    {
      RelistCount(lists, bucket, run, left, right, x);
    }
    RecountExact(Listed(lists), Listed(lists'), f, run, left, o, right);
  }

  /** How often x is listed after the merged neighbours are unlinked and
      the merged block is pushed. */
  lemma RelistCount(lists: FreeLists, bucket: nat, run: Run, left: int, right: int, x: int)
    requires bucket < |lists|
    ensures Listed(Push(UnlinkMerged(lists, run, left, right), bucket, run.start))[x]
         == (if x == run.start then 1 else 0)
          + (if (run.mergeLeft && x == left) || (run.mergeRight && x == right) then 0 else Listed(lists)[x])
  {
    var unlinked := UnlinkMerged(lists, run, left, right);
    PushListed(unlinked, bucket, run.start);
    UnlinkMergedListed(lists, run, left, right, x);
  }

  /** After a release the lists again hold exactly the free blocks: the
      merged neighbours are unlinked and the merged block is pushed. */
  lemma ReleaseListsExact(cfg: Config, h: Heap, o: int)
    requires ValidConfig(cfg) && SizesOk(cfg, h.blocks) && HasNeighbours(h.blocks) && ListsExact(cfg, h)
    requires o in h.blocks && h.blocks[o].state == Allocated
    ensures ListsExact(cfg, Release(cfg, h, o))
  {
    var b := h.blocks;
    ReleaseNeighbours(cfg, b, o);
    var l, e := LeftOf(b, o), RightOf(b, o);
    var run := Coalescing(b, o);
    ReleaseShape(cfg, h, o, run);
    MergeFreeOffsets(b, run.start, run.end, Absorbed(b, o, run));
    assert o !in FreeOffsets(b);
    RelistExact(h.lists, FreedBucket(cfg, run.end - run.start), FreeOffsets(b), run, l, o, e);
  }

  /** Releasing an allocated block keeps the heap invariant. */
  lemma ReleaseKeepsWellFormed(cfg: Config, h: Heap, o: int)
    requires ValidConfig(cfg) && WellFormed(cfg, h)
    requires o in h.blocks && h.blocks[o].state == Allocated
    ensures WellFormed(cfg, Release(cfg, h, o))
  {
    ReleaseKeepsBlocksOk(cfg, h, o);
    ReleaseListsExact(cfg, h, o);
  }

  /** Whenever `deallocate_object` returns, the heap invariant holds again. */
  lemma DeallocateKeepsWellFormed(cfg: Config, h: Heap, p: Option<int>)
    requires ValidConfig(cfg) && WellFormed(cfg, h)
    requires p.Some? ==>
      HeaderOf(cfg, p.value) in h.blocks && h.blocks[HeaderOf(cfg, p.value)].state != Fencepost
    ensures Deallocate(cfg, h, p).Freed? ==> WellFormed(cfg, Deallocate(cfg, h, p).heap)
  {
    if p.Some? {
      var o := HeaderOf(cfg, p.value);
      if h.blocks[o].state == Allocated {
        var r := Release(cfg, h, o);
        assert WellFormed(cfg, r) by {
          ReleaseKeepsWellFormed(cfg, h, o);
        }
        assert Deallocate(cfg, h, p) == Freed(r);
      }
    }
  }

  /** Releasing the allocated block at o (lines 120-167): the freed bytes end
      up inside one free block, from the run's start to its end, which is
      at the head of the bucket of its size. */
  lemma ReleaseOutcome(cfg: Config, h: Heap, o: int)
    requires ValidConfig(cfg) && SizesOk(cfg, h.blocks) && HasNeighbours(h.blocks) && |h.lists| == cfg.nLists
    requires o in h.blocks && h.blocks[o].state == Allocated
    ensures LeftOf(h.blocks, o) in h.blocks && h.blocks[LeftOf(h.blocks, o)].size == h.blocks[o].leftSize
    ensures RightOf(h.blocks, o) in h.blocks
    ensures IsFree(h.blocks, RightOf(h.blocks, o)) ==> RightOf(h.blocks, RightOf(h.blocks, o)) in h.blocks
    ensures Coalescing(h.blocks, o).start <= o < RightOf(h.blocks, o) <= Coalescing(h.blocks, o).end
    ensures IsFree(Release(cfg, h, o).blocks, Coalescing(h.blocks, o).start)
    ensures RightOf(Release(cfg, h, o).blocks, Coalescing(h.blocks, o).start) == Coalescing(h.blocks, o).end
    ensures Coalescing(h.blocks, o).end in Release(cfg, h, o).blocks
    ensures Release(cfg, h, o).blocks[Coalescing(h.blocks, o).end].leftSize
         == Coalescing(h.blocks, o).end - Coalescing(h.blocks, o).start
    ensures Release(cfg, h, o).lists[FreedBucket(cfg, Coalescing(h.blocks, o).end - Coalescing(h.blocks, o).start)][0]
         == Coalescing(h.blocks, o).start
  {
    var b := h.blocks;
    ReleaseNeighbours(cfg, b, o);
    var run := Coalescing(b, o);
    ReleaseShape(cfg, h, o, run);
  }

  /** A release touches only its run: the headers strictly inside the run
      are gone and every block outside it is unchanged. */
  lemma ReleaseOnlyTouchesRun(cfg: Config, h: Heap, o: int, x: int)
    requires ValidConfig(cfg) && WellFormed(cfg, h)
    requires o in h.blocks && h.blocks[o].state == Allocated
    ensures LeftOf(h.blocks, o) in h.blocks && h.blocks[LeftOf(h.blocks, o)].size == h.blocks[o].leftSize
    ensures RightOf(h.blocks, o) in h.blocks
    ensures IsFree(h.blocks, RightOf(h.blocks, o)) ==> RightOf(h.blocks, RightOf(h.blocks, o)) in h.blocks
    ensures Coalescing(h.blocks, o).start < x < Coalescing(h.blocks, o).end ==> x !in Release(cfg, h, o).blocks
    ensures x in h.blocks && (x < Coalescing(h.blocks, o).start || x > Coalescing(h.blocks, o).end)
            ==> x in Release(cfg, h, o).blocks && Release(cfg, h, o).blocks[x] == h.blocks[x]
  {
    var b := h.blocks;
    ReleaseNeighbours(cfg, b, o);
    ReleaseRunOk(cfg, h, o);
    var run := Coalescing(b, o);
    ReleaseShape(cfg, h, o, run);
  }

  /** Freeing a pointer twice is caught when its block's header survives
      the first free, that is, when the block did not merge into its left
      neighbour. */
  lemma SecondFreeIsDoubleFree(cfg: Config, h: Heap, p: Option<int>)
    requires ValidConfig(cfg) && WellFormed(cfg, h)
    requires p.Some? && HeaderOf(cfg, p.value) in h.blocks && h.blocks[HeaderOf(cfg, p.value)].state == Allocated
    requires LeftOf(h.blocks, HeaderOf(cfg, p.value)) in h.blocks
    requires !IsFree(h.blocks, LeftOf(h.blocks, HeaderOf(cfg, p.value)))
    ensures Deallocate(cfg, h, p) == Freed(Release(cfg, h, HeaderOf(cfg, p.value)))
    ensures WellFormed(cfg, Release(cfg, h, HeaderOf(cfg, p.value)))
    ensures IsFree(Release(cfg, h, HeaderOf(cfg, p.value)).blocks, HeaderOf(cfg, p.value))
    ensures Deallocate(cfg, Release(cfg, h, HeaderOf(cfg, p.value)), p) == DoubleFree
  {
    var o := HeaderOf(cfg, p.value);
    ReleaseKeepsWellFormed(cfg, h, o);
    ReleaseNeighbours(cfg, h.blocks, o);
    ReleaseShape(cfg, h, o, Coalescing(h.blocks, o));
  }
}

=== FILE: fixed_width.dfy ===
/** The size arithmetic of `allocate_object` and `deallocate_object` on the
    machine's integer widths: `size_t` is 64 bits and wraps, `int` is 32
    bits and a `size_t` converted to it keeps the low 32 bits (two's
    complement). N_LISTS is read as a plain (signed) integer constant, since
    its definition is not in the file. The rest of the model uses the
    unbounded `SizeClass` definitions; the members here show where the
    fixed-width code departs from them. */
module FixedWidth {
  import opened Heap
  import opened SizeClass

  /** 2^64: `size_t` arithmetic is modulo this. */
  const SizeWord: nat := 0x1_0000_0000_0000_0000

  /** 2^32 and 2^31: the width and sign bit of `int`. */
  const IntWord: nat := 0x1_0000_0000
  const IntSign: nat := 0x8000_0000

  /** Conversion of a `size_t` value to `int`: the low 32 bits, read as two's complement. */
  function ToInt32(x: nat): (r: int)
    ensures -(IntSign as int) <= r < IntSign as int
    ensures x < IntSign ==> r == x
  {
    (x + IntSign) % IntWord - IntSign
  }

  /** Lines 19-23 on a 64-bit `size_t`: `raw_size + 7` wraps, and `& ~7`
      clears the low three bits, which is rounding down to a multiple of 8. */
  function RoundedAsWritten(cfg: Config, raw: nat): (r: nat)
    requires ValidConfig(cfg) && raw < SizeWord
    ensures r % 8 == 0 && r >= cfg.allocHeaderSize
  {
    var aligned := (raw + 7) % SizeWord / 8 * 8;
    if aligned < cfg.allocHeaderSize then cfg.allocHeaderSize else aligned
  }

  /** Away from the top of the `size_t` range the code rounds as `Rounded` says. */
  lemma RoundedAsWrittenAgrees(cfg: Config, raw: nat)
    requires ValidConfig(cfg) && raw + 7 < SizeWord
    ensures RoundedAsWritten(cfg, raw) == Rounded(cfg, raw)
  {
    assert (raw + 7) % SizeWord == raw + 7;
    assert (raw + 7) % SizeWord / 8 * 8 == RoundUp8(raw);
  }

  /** The largest request wraps to a zero-byte rounding, so the block handed
      out would be smaller than the request; `Rounded` never rounds down. */
  lemma RoundedAsWrittenShrinks(cfg: Config)
    requires ValidConfig(cfg) && cfg.allocHeaderSize < SizeWord - 1
    ensures RoundedAsWritten(cfg, SizeWord - 1) == cfg.allocHeaderSize
    ensures RoundedAsWritten(cfg, SizeWord - 1) < SizeWord - 1
    ensures Rounded(cfg, SizeWord - 1) >= SizeWord - 1
  {
    assert (SizeWord - 1 + 7) % SizeWord == 6;
  }

  /** Line 24 on a 64-bit `size_t`: `ALLOC_HEADER_SIZE + rounded` wraps. */
  function ActualSizeAsWritten(cfg: Config, raw: nat): (r: nat)
    requires ValidConfig(cfg) && raw < SizeWord
    ensures r < SizeWord && r % 8 == 0
  {
    var sum := cfg.allocHeaderSize + RoundedAsWritten(cfg, raw);
    AlignedModWord(sum);
    sum % SizeWord
  }

  /** Reducing modulo 2^64 keeps a multiple of 8 a multiple of 8. */
  lemma AlignedModWord(n: nat)
    requires n % 8 == 0
    ensures n % SizeWord % 8 == 0
  {
    assert n == n / SizeWord * SizeWord + n % SizeWord;
    assert n / SizeWord * SizeWord == 8 * (n / SizeWord * 0x2000_0000_0000_0000);
  }

  /** Whether the addition at line 24 overflows `size_t`. */
  predicate ActualSizeWraps(cfg: Config, raw: nat)
    requires ValidConfig(cfg) && raw < SizeWord
  {
    cfg.allocHeaderSize + RoundedAsWritten(cfg, raw) >= SizeWord
  }

  /** Line 24 wraps for exactly the requests from 2^64 - ALLOC_HEADER_SIZE - 7
      to 2^64 - 8. The seven requests above them already wrapped at line 19,
      to a rounding of ALLOC_HEADER_SIZE, so the sum no longer overflows. */
  lemma ActualSizeWrapsExactly(cfg: Config, raw: nat)
    requires ValidConfig(cfg) && raw < SizeWord && cfg.allocHeaderSize < SizeWord / 2
    ensures ActualSizeWraps(cfg, raw) <==> SizeWord - cfg.allocHeaderSize - 7 <= raw <= SizeWord - 8
  {
    var h := cfg.allocHeaderSize;
    if raw + 7 < SizeWord {
      RoundedAsWrittenAgrees(cfg, raw);
      var r := Rounded(cfg, raw);
      if r == h {
        assert !ActualSizeWraps(cfg, raw);
        assert raw <= h;
      } else {
        assert r == RoundUp8(raw);
        assert (SizeWord - h) % 8 == 0;
        if raw + 7 >= SizeWord - h {
          assert r >= SizeWord - h;
        } else {
          assert r < SizeWord - h;
        }
      }
    } else {
      assert (raw + 7) % SizeWord == raw + 7 - SizeWord;
      assert (raw + 7) % SizeWord / 8 == 0;
      assert RoundedAsWritten(cfg, raw) == h;
    }
  }

  /** A request of 2^64 - 8 bytes wraps at line 24 to an actual size of
      ALLOC_HEADER_SIZE - 8, so the search accepts blocks far smaller than
      the request; `ActualSize` always covers the request plus its header. */
  lemma ActualSizeAsWrittenShrinks(cfg: Config)
    requires ValidConfig(cfg) && 8 <= cfg.allocHeaderSize < SizeWord / 2
    ensures ActualSizeAsWritten(cfg, SizeWord - 8) == cfg.allocHeaderSize - 8
    ensures ActualSizeAsWritten(cfg, SizeWord - 8) < SizeWord - 8
    ensures ActualSize(cfg, SizeWord - 8) >= SizeWord - 8 + cfg.allocHeaderSize
  {
    RoundedAsWrittenAgrees(cfg, SizeWord - 8);
    assert RoundUp8(SizeWord - 8) == SizeWord - 8;
  }

  /** Below the wrapping range line 24 computes the size `ActualSize` does. */
  lemma ActualSizeAsWrittenAgrees(cfg: Config, raw: nat)
    requires ValidConfig(cfg) && cfg.allocHeaderSize < SizeWord / 2
    requires raw + cfg.allocHeaderSize + 7 < SizeWord
    ensures ActualSizeAsWritten(cfg, raw) == ActualSize(cfg, raw)
  {
    RoundedAsWrittenAgrees(cfg, raw);
    assert cfg.allocHeaderSize + Rounded(cfg, raw) < SizeWord;
  }

  /** An index computed in `size_t`, stored in an `int` and then capped
      only from above, as at lines 27-30 and 76-79. */
  function StoredIndex(cfg: Config, x: nat): (r: int)
    requires ValidConfig(cfg)
    ensures r < cfg.nLists
    ensures x < IntSign ==> r == if x >= cfg.nLists then cfg.nLists - 1 else x
  {
    var idx := ToInt32(x);
    if idx >= cfg.nLists then cfg.nLists - 1 else idx
  }

  /** Lines 19-30 as the machine runs them: the 64-bit rounding of line 19,
      then `int freelist_idx = (rounded / 8) - 1`, whose subtraction is in
      `size_t`, and the upper cap. */
  function StartBucketAsWritten(cfg: Config, raw: nat): (r: int)
    requires ValidConfig(cfg) && 0 < raw < SizeWord
    ensures r < cfg.nLists
  {
    StoredIndex(cfg, (RoundedAsWritten(cfg, raw) / 8 + SizeWord - 1) % SizeWord)
  }

  /** A `size_t` just below 2^61 is stored in an `int` as a small negative value. */
  lemma ToInt32Below2To61(k: nat)
    requires 1 <= k <= 0x8000_0000
    ensures ToInt32(0x2000_0000_0000_0000 - k) == -(k as int)
  {
    var x := 0x2000_0000_0000_0000 - k;
    assert x + IntSign == 0x2000_0000 * IntWord + (IntSign - k);
  }

  /** Away from the top of the `size_t` range, and while the rounded request
      stays below 2^34 bytes, the code picks the bucket `StartBucket` picks. */
  lemma StartBucketAsWrittenAgrees(cfg: Config, raw: nat)
    requires ValidConfig(cfg) && raw > 0 && raw + 7 < SizeWord
    requires Rounded(cfg, raw) / 8 - 1 < IntSign
    ensures StartBucketAsWritten(cfg, raw) == StartBucket(cfg, raw)
  {
    RoundedAsWrittenAgrees(cfg, raw);
    var x := Rounded(cfg, raw) / 8;
    assert 1 <= x < SizeWord;
    assert (x + SizeWord - 1) % SizeWord == x - 1;
  }

  /** A request of 2^34 + 8 bytes gives the index -2^31, which passes the
      cap and indexes `freelistSentinels` before its start; `StartBucket`
      is always a valid bucket. */
  lemma StartBucketAsWrittenNegative(cfg: Config)
    requires ValidConfig(cfg) && cfg.allocHeaderSize <= 0x4_0000_0008
    ensures StartBucketAsWritten(cfg, 0x4_0000_0008) == -(IntSign as int)
    ensures 0 <= StartBucket(cfg, 0x4_0000_0008) < cfg.nLists
  {
    RoundedAsWrittenAgrees(cfg, 0x4_0000_0008);
    assert Rounded(cfg, 0x4_0000_0008) == 0x4_0000_0008;
    assert (0x8000_0001 + SizeWord - 1) % SizeWord == 0x8000_0000;
  }

  /** The seven largest requests wrap at line 19 to a rounding of
      ALLOC_HEADER_SIZE, so the search starts at that payload's class, a
      valid bucket no higher than the one `StartBucket` picks. */
  lemma StartBucketAsWrittenTop(cfg: Config, raw: nat)
    requires ValidConfig(cfg) && 8 <= cfg.allocHeaderSize < IntSign
    requires SizeWord - 7 <= raw < SizeWord
    ensures StartBucketAsWritten(cfg, raw) == Bucket(cfg, cfg.allocHeaderSize)
    ensures 0 <= StartBucketAsWritten(cfg, raw) <= StartBucket(cfg, raw)
  {
    assert (raw + 7) % SizeWord == raw + 7 - SizeWord;
    assert RoundedAsWritten(cfg, raw) == cfg.allocHeaderSize;
    var x := cfg.allocHeaderSize / 8;
    assert (x + SizeWord - 1) % SizeWord == x - 1;
    BucketMonotone(cfg, cfg.allocHeaderSize, Rounded(cfg, raw));
  }

  /** For the requests whose `actual_size` wraps at line 24, `rounded / 8 - 1`
      is just below 2^61 and is stored in an `int` as a small negative
      index, from -(ALLOC_HEADER_SIZE / 8) - 1 to -2; the request 2^64 - 8
      gives -2. */
  lemma StartBucketAsWrittenInWrapRange(cfg: Config, raw: nat)
    requires ValidConfig(cfg) && 8 <= cfg.allocHeaderSize < IntSign
    requires SizeWord - cfg.allocHeaderSize - 7 <= raw <= SizeWord - 8
    ensures ActualSizeWraps(cfg, raw)
    ensures -(cfg.allocHeaderSize / 8) - 1 <= StartBucketAsWritten(cfg, raw) <= -2
    ensures raw == SizeWord - 8 ==> StartBucketAsWritten(cfg, raw) == -2
  {
    ActualSizeWrapsExactly(cfg, raw);
    RoundedAsWrittenAgrees(cfg, raw);
    var rd := Rounded(cfg, raw);
    assert rd == RoundUp8(raw);
    var q := rd / 8;
    assert (q + SizeWord - 1) % SizeWord == q - 1;
    var k := 0x2000_0000_0000_0000 - (q - 1);
    assert 2 <= k <= cfg.allocHeaderSize / 8 + 1;
    ToInt32Below2To61(k);
  }

  /** Lines 76-79: the remainder's index `(size - ALLOC_HEADER_SIZE) / 8 - 1`
      is stored in an `int` the same way. */
  function RemainderBucketAsWritten(cfg: Config, size: nat): (r: int)
    requires ValidConfig(cfg) && size >= cfg.headerSize
    ensures r < cfg.nLists
  {
    StoredIndex(cfg, (size - cfg.allocHeaderSize) / 8 - 1)
  }

  /** While the remainder's payload stays below 2^34 bytes the code picks
      the bucket `RemainderBucket` picks. */
  lemma RemainderBucketAsWrittenAgrees(cfg: Config, size: nat)
    requires ValidConfig(cfg) && size >= cfg.headerSize
    requires (size - cfg.allocHeaderSize) / 8 - 1 < IntSign
    ensures RemainderBucketAsWritten(cfg, size) == RemainderBucket(cfg, size)
  {
  }

  /** A remainder with a payload of 2^34 + 8 bytes is pushed onto bucket
      -2^31; `RemainderBucket` is always a valid bucket. */
  lemma RemainderBucketAsWrittenNegative(cfg: Config)
    requires ValidConfig(cfg) && cfg.headerSize <= cfg.allocHeaderSize + 0x4_0000_0008
    ensures RemainderBucketAsWritten(cfg, cfg.allocHeaderSize + 0x4_0000_0008) == -(IntSign as int)
    ensures 0 <= RemainderBucket(cfg, cfg.allocHeaderSize + 0x4_0000_0008) < cfg.nLists
  {
  }

  /** C's `/` on `int`: the quotient by 8 rounded toward zero. */
  function Quot8(x: int): (q: int)
    ensures x >= 0 ==> 8 * q <= x < 8 * q + 8
    ensures x < 0 ==> 8 * q - 8 < x <= 8 * q
  {
    if x >= 0 then x / 8 else -((-x) / 8)
  }

  /** Lines 153-160: `int alloc_size = get_size(block) - ALLOC_HEADER_SIZE`
      keeps the low 32 bits of the size; the floor compares it with
      ALLOC_HEADER_SIZE, as an unsigned value when ALLOC_HEADER_SIZE is a
      `size_t` (`headerUnsigned`) and as a signed one otherwise; the index
      is then computed in `int` and capped from above only. */
  function FreedBucketAsWritten(cfg: Config, size: nat, headerUnsigned: bool): (r: int)
    requires ValidConfig(cfg) && size >= cfg.allocHeaderSize + 8
    ensures r < cfg.nLists
  {
    var allocSize := ToInt32(size - cfg.allocHeaderSize);
    var floored := if headerUnsigned then allocSize % SizeWord < cfg.allocHeaderSize
                   else allocSize < cfg.allocHeaderSize;
    var payload := if floored then cfg.allocHeaderSize else allocSize;
    var idx := Quot8(payload) - 1;
    if idx >= cfg.nLists then cfg.nLists - 1 else idx
  }

  /** While the merged block's payload stays below 2^31 bytes the code, on
      either reading of the floor, picks the bucket `FreedBucket` picks. */
  lemma FreedBucketAsWrittenAgrees(cfg: Config, size: nat, headerUnsigned: bool)
    requires ValidConfig(cfg) && size >= cfg.allocHeaderSize + 8
    requires size - cfg.allocHeaderSize < IntSign
    ensures FreedBucketAsWritten(cfg, size, headerUnsigned) == FreedBucket(cfg, size)
  {
    var allocSize := size - cfg.allocHeaderSize;
    assert ToInt32(allocSize) == allocSize;
    assert allocSize % SizeWord == allocSize;
  }

  /** Signed floor: a merged block with a payload of 2^31 + 8 bytes gets a
      negative `alloc_size`, the floor raises it to ALLOC_HEADER_SIZE, and
      the block is filed under the small class of that payload instead of
      the last bucket, where `FreedBucket` puts it. */
  lemma FreedBucketAsWrittenMisfiles(cfg: Config)
    requires ValidConfig(cfg) && 8 <= cfg.allocHeaderSize < 8 * cfg.nLists
    requires cfg.nLists <= 0x1000_0000
    ensures FreedBucketAsWritten(cfg, cfg.allocHeaderSize + 0x8000_0008, false) == cfg.allocHeaderSize / 8 - 1
    ensures FreedBucketAsWritten(cfg, cfg.allocHeaderSize + 0x8000_0008, false) < cfg.nLists - 1
    ensures FreedBucket(cfg, cfg.allocHeaderSize + 0x8000_0008) == cfg.nLists - 1
  {
    assert ToInt32(0x8000_0008) == 8 - IntSign;
    assert Max(0x8000_0008, cfg.allocHeaderSize) == 0x8000_0008;
  }

  /** Unsigned floor: the same block skips the floor, and the index
      `(8 - 2^31) / 8 - 1 = -2^28` passes the cap. */
  lemma FreedBucketAsWrittenNegative(cfg: Config)
    requires ValidConfig(cfg) && cfg.allocHeaderSize <= IntSign
    ensures FreedBucketAsWritten(cfg, cfg.allocHeaderSize + 0x8000_0008, true) == -0x1000_0000
  {
    assert ToInt32(0x8000_0008) == 8 - IntSign;
    assert (8 - IntSign) % SizeWord == SizeWord + 8 - IntSign;
    assert Quot8(8 - IntSign) == -0x0FFF_FFFF;
  }
}

=== FILE: free_lists.dfy ===
/** The segregated free-list index: one list of block offsets per size class.
    A circular doubly-linked list with a sentinel becomes a sequence whose
    first element is the node after the sentinel; pushing at the sentinel is
    prepending, and unlinking a node is removing that element. */
module FreeLists {

  /** Bucket i holds the header offsets of the free blocks linked after sentinel i. */
  type FreeLists = seq<seq<int>>

  /** Every offset on any list, counted with multiplicity. */
  function Listed(lists: FreeLists): multiset<int>
  {
    if |lists| == 0 then multiset{} else multiset(lists[0]) + Listed(lists[1..])
  }

  /** Replacing one bucket changes the listed multiset by exactly that bucket's difference. */
  lemma {:induction false} ListedUpdate(lists: FreeLists, i: nat, l: seq<int>, x: int)
    requires i < |lists|
    ensures Listed(lists[i := l])[x] + multiset(lists[i])[x] == Listed(lists)[x] + multiset(l)[x]
    decreases |lists|
  {
    if i == 0 {
      assert lists[i := l][1..] == lists[1..];
    } else {
      ListedUpdate(lists[1..], i - 1, l, x);
      assert lists[i := l][1..] == lists[1..][i - 1 := l];
      assert lists[1..][i - 1] == lists[i];
    }
  }

  /** An offset occurs in the listed multiset at least as often as in any one bucket. */
  lemma {:induction false} ListedCoversBucket(lists: FreeLists, i: nat, x: int)
    requires i < |lists|
    ensures multiset(lists[i])[x] <= Listed(lists)[x]
    decreases |lists|
  {
    if i > 0 {
      ListedCoversBucket(lists[1..], i - 1, x);
    }
  }

  /** An offset that is not listed is on no bucket. */
  lemma NotListedInNoBucket(lists: FreeLists, x: int)
    requires Listed(lists)[x] == 0
    ensures forall i :: 0 <= i < |lists| ==> x !in lists[i]
  {
    forall i | 0 <= i < |lists|
      ensures x !in lists[i]
    {
      ListedCoversBucket(lists, i, x);
    }
  }

  /** Insert a block at the front of bucket i (the node after the sentinel). */
  function Push(lists: FreeLists, i: nat, o: int): (r: FreeLists)
    requires i < |lists|
    ensures |r| == |lists|
    ensures |r[i]| > 0 && r[i][0] == o && r[i][1..] == lists[i]
    ensures forall k :: 0 <= k < |lists| && k != i ==> r[k] == lists[k]
  {
    lists[i := [o] + lists[i]]
  }

  /** Pushing adds exactly one occurrence of the pushed offset. */
  lemma PushListed(lists: FreeLists, i: nat, o: int)
    requires i < |lists|
    ensures Listed(Push(lists, i, o)) == Listed(lists) + multiset{o}
  {
    var l := [o] + lists[i];
    assert Push(lists, i, o) == lists[i := l];
    assert multiset(l) == multiset{o} + multiset(lists[i]);
    forall x
      ensures Listed(lists[i := l])[x] == (Listed(lists) + multiset{o})[x]
    {
      ListedUpdate(lists, i, l, x);
    }
  }

  /** Unlink the node at position j of bucket i. */
  function RemoveAt(lists: FreeLists, i: nat, j: nat): (r: FreeLists)
    requires i < |lists| && j < |lists[i]|
    ensures |r| == |lists|
    ensures r[i] == lists[i][..j] + lists[i][j + 1..]
    ensures forall k :: 0 <= k < |lists| && k != i ==> r[k] == lists[k]
  {
    lists[i := lists[i][..j] + lists[i][j + 1..]]
  }

  /** Unlinking a node removes exactly one occurrence of it. */
  lemma RemoveAtListed(lists: FreeLists, i: nat, j: nat)
    requires i < |lists| && j < |lists[i]|
    ensures Listed(RemoveAt(lists, i, j)) + multiset{lists[i][j]} == Listed(lists)
  {
    var l := lists[i][..j] + lists[i][j + 1..];
    assert RemoveAt(lists, i, j) == lists[i := l];
    DropOne(lists[i], j);
    forall x
      ensures (Listed(lists[i := l]) + multiset{lists[i][j]})[x] == Listed(lists)[x]
    {
      ListedUpdate(lists, i, l, x);
    }
  }

  /** Dropping position j of a sequence removes one occurrence of its element. */
  lemma DropOne(l: seq<int>, j: nat)
    requires j < |l|
    ensures multiset(l) == multiset(l[..j] + l[j + 1..]) + multiset{l[j]}
  {
    assert l == l[..j] + [l[j]] + l[j + 1..];
  }

  /** A bucket with every occurrence of o unlinked, other nodes kept in order. */
  function Without(l: seq<int>, o: int): (r: seq<int>)
    ensures o !in r
    ensures multiset(r) == multiset(l)[o := 0]
    ensures forall x :: x in l && x != o ==> x in r
    ensures o !in l ==> r == l
  {
    if |l| == 0 then []
    else
      var rest := Without(l[1..], o);
      assert l == [l[0]] + l[1..];
      if l[0] == o then rest else [l[0]] + rest
  }

  /** One step of the unlink: the first node is dropped exactly when it is o. */
  lemma WithoutCons(x: int, l: seq<int>, o: int)
    ensures Without([x] + l, o) == if x == o then Without(l, o) else [x] + Without(l, o)
  {
    assert ([x] + l)[0] == x && ([x] + l)[1..] == l;
  }

  /** Where a node that occurs once, at position j, lies relative to the
      head of the bucket and its tail. */
  lemma OnceInTail(l: seq<int>, j: nat)
    requires j < |l| && multiset(l)[l[j]] == 1
    ensures j == 0 ==> l[j] !in l[1..]
    ensures j > 0 ==> l[0] != l[j] && l[1..][j - 1] == l[j] && multiset(l[1..])[l[j]] == 1
    ensures j > 0 ==> [l[0]] + (l[1..][..j - 1] + l[1..][j..]) == l[..j] + l[j + 1..]
  {
    assert l == [l[0]] + l[1..];
    assert multiset(l) == multiset{l[0]} + multiset(l[1..]);
  }

  /** A node that occurs once, at position j, is unlinked by dropping
      exactly that position: the nodes before and after it stay in order. */
  lemma {:induction false} WithoutOnce(l: seq<int>, j: nat)
    requires j < |l| && multiset(l)[l[j]] == 1
    ensures Without(l, l[j]) == l[..j] + l[j + 1..]
    decreases j
  {
    OnceInTail(l, j);
    assert l == [l[0]] + l[1..];
    WithoutCons(l[0], l[1..], l[j]);
    if j > 0 {
      WithoutOnce(l[1..], j - 1);
    }
  }

  /** Unlink block o from whatever bucket holds it: the node's own prev/next
      links locate it, so no bucket index is needed. */
  function Unlink(lists: FreeLists, o: int): (r: FreeLists)
    ensures |r| == |lists|
    ensures forall k :: 0 <= k < |lists| ==> r[k] == Without(lists[k], o)
  {
    if |lists| == 0 then []
    else
      var rest := Unlink(lists[1..], o);
      [Without(lists[0], o)] + rest
  }

  /** Unlinking drops every occurrence of o and keeps every other node. */
  lemma {:induction false} UnlinkListed(lists: FreeLists, o: int)
    ensures Listed(Unlink(lists, o)) == Listed(lists)[o := 0]
    decreases |lists|
  {
    if |lists| > 0 {
      UnlinkListed(lists[1..], o);
      var r := Unlink(lists, o);
      assert r[1..] == Unlink(lists[1..], o);
    }
  }

  /** A node listed once sits in a single bucket, once. */
  lemma ListedOnceInOneBucket(lists: FreeLists, i: nat, j: nat)
    requires i < |lists| && j < |lists[i]|
    requires Listed(lists)[lists[i][j]] == 1
    ensures multiset(lists[i])[lists[i][j]] == 1
    ensures forall k :: 0 <= k < |lists| && k != i ==> lists[i][j] !in lists[k]
  {
    var o := lists[i][j];
    var l := lists[i][..j] + lists[i][j + 1..];
    var r := lists[i := l];
    DropOne(lists[i], j);
    ListedUpdate(lists, i, l, o);
    ListedCoversBucket(r, i, o);
    forall k | 0 <= k < |lists| && k != i
      ensures o !in lists[k]
    {
      ListedCoversBucket(r, k, o);
      assert r[k] == lists[k];
    }
  }

  /** A node listed once is unlinked the same way by its own links, as
      `deallocate_object` does, and by its bucket and position, as
      `allocate_object` does. */
  lemma UnlinkIsRemoveAt(lists: FreeLists, i: nat, j: nat)
    requires i < |lists| && j < |lists[i]|
    requires Listed(lists)[lists[i][j]] == 1
    ensures Unlink(lists, lists[i][j]) == RemoveAt(lists, i, j)
  {
    var o := lists[i][j];
    ListedOnceInOneBucket(lists, i, j);
    WithoutOnce(lists[i], j);
    var u, r := Unlink(lists, o), RemoveAt(lists, i, j);
    forall k | 0 <= k < |lists|
      ensures u[k] == r[k]
    {
      if k != i {
        assert o !in lists[k];
      }
    }
  }
}

=== FILE: heap.dfy ===
/** The header/block model: every block of the heap is a record keyed by the
    byte offset of its header, carrying its total size, the boundary tag
    (`leftSize`, the size of the block physically to its left) and its state.
    Arena edges are guard blocks (fenceposts) that are never free. */
module Heap {
  import opened FreeLists

  /** The allocator's build-time constants: ALLOC_HEADER_SIZE (the bytes
      before an allocated block's payload), sizeof(header) (a free block's
      header with its list links) and N_LISTS (the number of buckets). */
  datatype Config = Config(allocHeaderSize: nat, headerSize: nat, nLists: nat)

  predicate ValidConfig(cfg: Config)
  {
    && cfg.allocHeaderSize % 8 == 0
    && cfg.headerSize % 8 == 0
    && cfg.headerSize >= cfg.allocHeaderSize + 8
    && cfg.nLists >= 1
  }

  datatype BlockState = Unallocated | Allocated | Fencepost

  datatype Block = Block(size: nat, leftSize: nat, state: BlockState)

  /** Block headers in address order, keyed by byte offset. */
  type Blocks = map<int, Block>

  datatype Heap = Heap(blocks: Blocks, lists: FreeLists)

  /** Offset of the block physically to the right of the block at o. */
  function RightOf(b: Blocks, o: int): int
    requires o in b
  {
    o + b[o].size
  }

  /** Offset of the block physically to the left, found through the boundary tag. */
  function LeftOf(b: Blocks, o: int): int
    requires o in b
  {
    o - b[o].leftSize
  }

  /** The header of the block whose payload starts at ptr: user pointers
      point ALLOC_HEADER_SIZE bytes past their block's header. */
  function HeaderOf(cfg: Config, ptr: int): (o: int)
    ensures o + cfg.allocHeaderSize == ptr
  {
    ptr - cfg.allocHeaderSize
  }

  predicate IsFree(b: Blocks, o: int)
  {
    o in b && b[o].state == Unallocated
  }

  function FreeOffsets(b: Blocks): set<int>
  {
    set o | o in b && b[o].state == Unallocated
  }

  /** Every block has positive size; a non-guard block is 8-byte aligned in
      size and can hold an allocation header plus at least 8 payload bytes. */
  ghost predicate SizesOk(cfg: Config, b: Blocks)
  {
    forall o {:trigger b[o]} :: o in b ==>
      && b[o].size > 0
      && (b[o].state != Fencepost ==> b[o].size % 8 == 0 && b[o].size >= cfg.allocHeaderSize + 8)
  }

  /** Offset p lies strictly inside the block at o. */
  predicate Inside(b: Blocks, o: int, p: int)
    requires o in b
  {
    o < p < RightOf(b, o)
  }

  /** Blocks do not overlap: no block header lies inside another block. */
  ghost predicate Disjoint(b: Blocks)
  {
    forall o, p {:trigger Inside(b, o, p)} :: o in b && p in b ==> !Inside(b, o, p)
  }

  /** A non-guard block has a block on each side: right at its end, left
      where its boundary tag points, and that left block ends exactly here. */
  ghost predicate HasNeighbours(b: Blocks)
  {
    && (forall o {:trigger RightOf(b, o)} :: o in b && b[o].state != Fencepost ==> RightOf(b, o) in b)
    && (forall o {:trigger LeftOf(b, o)} :: o in b && b[o].state != Fencepost ==>
          LeftOf(b, o) in b && b[LeftOf(b, o)].size == b[o].leftSize)
  }

  /** Boundary tags: every block's leftSize is the size of the block ending at it. */
  ghost predicate TagsOk(b: Blocks)
  {
    forall o {:trigger RightOf(b, o)} :: o in b && RightOf(b, o) in b ==> b[RightOf(b, o)].leftSize == b[o].size
  }

  /** Immediate coalescing: no free block is followed by a free block. */
  ghost predicate Coalesced(b: Blocks)
  {
    forall o {:trigger RightOf(b, o)} :: IsFree(b, o) && RightOf(b, o) in b ==> !IsFree(b, RightOf(b, o))
  }

  /** The free lists hold exactly the free blocks, each once. */
  ghost predicate ListsExact(cfg: Config, h: Heap)
  {
    && |h.lists| == cfg.nLists
    && Listed(h.lists) == multiset(FreeOffsets(h.blocks))
  }

  /** The block-level invariants, which do not involve the free lists. */
  ghost predicate BlocksOk(cfg: Config, b: Blocks)
  {
    SizesOk(cfg, b) && Disjoint(b) && HasNeighbours(b) && TagsOk(b) && Coalesced(b)
  }

  /** The allocator's heap invariant. */
  ghost predicate WellFormed(cfg: Config, h: Heap)
  {
    BlocksOk(cfg, h.blocks) && ListsExact(cfg, h)
  }

  /** A block ending at a block x is x's left neighbour, as its boundary tag says. */
  lemma EndingAtIsLeftOf(b: Blocks, k: int, x: int)
    requires TagsOk(b)
    requires k in b && x in b && RightOf(b, k) == x
    ensures k == LeftOf(b, x)
  {
  }

  /** Any node on a free list is a free block, and is on the lists once. */
  lemma ListedIsFree(cfg: Config, h: Heap, i: nat, j: nat)
    requires ListsExact(cfg, h)
    requires i < |h.lists| && j < |h.lists[i]|
    ensures IsFree(h.blocks, h.lists[i][j])
    ensures Listed(h.lists)[h.lists[i][j]] == 1
  {
    var x := h.lists[i][j];
    ListedCoversBucket(h.lists, i, x);
    assert x in multiset(FreeOffsets(h.blocks));
  }

  /** What the search in `allocate_object` relies on: there is a bucket per
      size class, and every listed node is a block with a right neighbour. */
  ghost predicate ListedNodesOk(cfg: Config, h: Heap)
  {
    && |h.lists| == cfg.nLists
    && forall i, j {:trigger h.lists[i][j]} :: 0 <= i < |h.lists| && 0 <= j < |h.lists[i]| ==>
         h.lists[i][j] in h.blocks && RightOf(h.blocks, h.lists[i][j]) in h.blocks
  }

  /** The heap invariants give the search what it relies on. */
  lemma WellFormedListedNodesOk(cfg: Config, h: Heap)
    requires WellFormed(cfg, h)
    ensures ListedNodesOk(cfg, h)
  {
    forall i, j | 0 <= i < |h.lists| && 0 <= j < |h.lists[i]|
      ensures h.lists[i][j] in h.blocks && RightOf(h.blocks, h.lists[i][j]) in h.blocks
    {
      ListedIsFree(cfg, h, i, j);
    }
  }

  /** A block that is not free is linked on no free list. */
  lemma NotFreeNotListed(cfg: Config, h: Heap, x: int)
    requires ListsExact(cfg, h) && !IsFree(h.blocks, x)
    ensures forall i :: 0 <= i < |h.lists| ==> x !in h.lists[i]
  {
    assert x !in FreeOffsets(h.blocks);
    NotListedInNoBucket(h.lists, x);
  }

  /** Under the list invariant every listed node is listed once, so
      unlinking it by its own links is unlinking it by position. */
  lemma UnlinkListedNode(cfg: Config, h: Heap, i: nat, j: nat)
    requires ListsExact(cfg, h)
    requires i < |h.lists| && j < |h.lists[i]|
    ensures Unlink(h.lists, h.lists[i][j]) == RemoveAt(h.lists, i, j)
  {
    ListedIsFree(cfg, h, i, j);
    UnlinkIsRemoveAt(h.lists, i, j);
  }
}

=== FILE: round_trip.dfy ===
/** Allocation followed by deallocation: freeing the block `allocate_object`
    just handed out puts the heap's blocks back exactly as they were, and the
    free lists hold the same blocks again (possibly in another order). */
module RoundTrip {
  import opened Wrappers
  import opened FreeLists
  import opened Heap
  import opened SizeClass
  import opened Allocate
  import opened Deallocate

  /** Split case at block level: the allocated upper part merges back into
      the free remainder on its left, and nothing merges on the right. */
  lemma SplitThenMerge(cfg: Config, b: Blocks, o: int, leftover: nat, need: nat)
    requires SplitSetting(cfg, b, o, leftover, need)
    ensures RightOf(b, o) in b && o + leftover !in b
    ensures var r := SplitBlocks(b, o, leftover, need);
      && o + leftover in r && r[o + leftover].state == Allocated
      && LeftOf(r, o + leftover) == o && o in r && r[o].size == r[o + leftover].leftSize
      && RightOf(r, o + leftover) == RightOf(b, o) && RightOf(b, o) in r
      && !IsFree(r, RightOf(b, o))
      && IsFree(r, o)
  {
    SplitFacts(cfg, b, o, leftover, need);
    var e := RightOf(b, o);
    SplitLookup(b, o, leftover, need, o);
    SplitLookup(b, o, leftover, need, o + leftover);
    SplitLookup(b, o, leftover, need, e);
    assert !IsFree(b, e);
  }

  /** Merging the run the release of the split block finds gives back the
      blocks from before the split. */
  lemma SplitMergeRestores(cfg: Config, b: Blocks, o: int, leftover: nat, need: nat)
    requires SplitSetting(cfg, b, o, leftover, need)
    requires RightOf(b, o) in b && o + leftover !in b
    ensures MergeBlocks(SplitBlocks(b, o, leftover, need), o, RightOf(b, o), {o + leftover}) == b
  {
    var e := RightOf(b, o);
    var r := SplitBlocks(b, o, leftover, need);
    SplitLookup(b, o, leftover, need, o);
    SplitLookup(b, o, leftover, need, e);
    var m := MergeBlocks(r, o, e, {o + leftover});
    forall x | x in b
      ensures m[x] == b[x]
    {
      SplitLookup(b, o, leftover, need, x);
    }
    assert m.Keys == b.Keys;
  }

  /** Whole-block case at block level: a free block has no free neighbour,
      so once allocated it is released without merging. */
  lemma WholeThenMerge(cfg: Config, b: Blocks, o: int)
    requires ValidConfig(cfg) && BlocksOk(cfg, b) && IsFree(b, o)
    ensures var r := SetState(b, o, Allocated);
      && LeftOf(r, o) in r && r[LeftOf(r, o)].size == r[o].leftSize && !IsFree(r, LeftOf(r, o))
      && RightOf(r, o) in r && !IsFree(r, RightOf(r, o))
      && MergeBlocks(r, o, RightOf(r, o), {}) == b
  {
    var r := SetState(b, o, Allocated);
    var l, e := LeftOf(b, o), RightOf(b, o);
    assert l in b && e in b && RightOf(b, l) == o;
    assert !IsFree(b, l) && !IsFree(b, e);
    var m := MergeBlocks(r, o, e, {});
    forall x | x in b
      ensures m[x] == b[x]
    {
    }
    assert m.Keys == b.Keys;
  }

  /** Split case of the round trip at heap level: releasing the allocated
      upper part of a split block gives back the blocks from before the split. */
  lemma SplitReleaseRestores(cfg: Config, h: Heap, a: Heap, o: int, leftover: nat, need: nat, p: Option<int>)
    requires SplitSetting(cfg, h.blocks, o, leftover, need)
    requires SizesOk(cfg, a.blocks) && HasNeighbours(a.blocks) && |a.lists| == cfg.nLists
    requires RightOf(h.blocks, o) in h.blocks && a.blocks == SplitBlocks(h.blocks, o, leftover, need)
    requires p == Some(o + leftover + cfg.allocHeaderSize)
    ensures HeaderOf(cfg, p.value) in a.blocks && a.blocks[HeaderOf(cfg, p.value)].state == Allocated
    ensures Release(cfg, a, HeaderOf(cfg, p.value)).blocks == h.blocks
  {
    SplitThenMerge(cfg, h.blocks, o, leftover, need);
    var run := Coalescing(a.blocks, HeaderOf(cfg, p.value));
    assert run == Run(true, false, o, RightOf(h.blocks, o));
    assert Absorbed(a.blocks, HeaderOf(cfg, p.value), run) == {o + leftover};
    ReleaseShape(cfg, a, HeaderOf(cfg, p.value), run);
    SplitMergeRestores(cfg, h.blocks, o, leftover, need);
  }

  /** Whole-block case of the round trip at heap level. */
  lemma WholeReleaseRestores(cfg: Config, h: Heap, a: Heap, o: int, p: Option<int>)
    requires ValidConfig(cfg) && BlocksOk(cfg, h.blocks) && IsFree(h.blocks, o)
    requires SizesOk(cfg, a.blocks) && HasNeighbours(a.blocks) && |a.lists| == cfg.nLists
    requires a.blocks == SetState(h.blocks, o, Allocated)
    requires p == Some(o + cfg.allocHeaderSize)
    ensures HeaderOf(cfg, p.value) in a.blocks && a.blocks[HeaderOf(cfg, p.value)].state == Allocated
    ensures Release(cfg, a, HeaderOf(cfg, p.value)).blocks == h.blocks
  {
    WholeThenMerge(cfg, h.blocks, o);
    var run := Coalescing(a.blocks, HeaderOf(cfg, p.value));
    assert run == Run(false, false, o, RightOf(a.blocks, o));
    assert Absorbed(a.blocks, HeaderOf(cfg, p.value), run) == {};
    ReleaseShape(cfg, a, HeaderOf(cfg, p.value), run);
  }

  /** What `allocate_object` did when it returned a block: either it split
      the free block o, handing out its upper part, or it handed o out whole. */
  lemma AllocateShape(cfg: Config, h: Heap, raw: nat, a: AllocResult) returns (o: int, leftover: nat, need: nat, split: bool)
    requires ValidConfig(cfg) && WellFormed(cfg, h)
    requires a == Allocate.Allocate(cfg, h, raw) && a.ptr.Some?
    ensures o in h.blocks && RightOf(h.blocks, o) in h.blocks && IsFree(h.blocks, o)
    ensures split ==> && SplitSetting(cfg, h.blocks, o, leftover, need)
                      && a.heap.blocks == SplitBlocks(h.blocks, o, leftover, need)
                      && a.ptr == Some(o + leftover + cfg.allocHeaderSize)
    ensures !split ==> a.heap.blocks == SetState(h.blocks, o, Allocated) && a.ptr == Some(o + cfg.allocHeaderSize)
  {
    need := ActualSize(cfg, raw);
    var slot := SearchFrom(h.blocks, h.lists, need, StartBucket(cfg, raw)).value;
    o := h.lists[slot.bucket][slot.pos];
    ListedIsFree(cfg, h, slot.bucket, slot.pos);
    split := h.blocks[o].size - need >= cfg.headerSize;
    if split {
      leftover := h.blocks[o].size - need;
      SplitShape(cfg, h, raw, a, slot.bucket, slot.pos, o, need, leftover);
    } else {
      leftover := 0;
      WholeShape(cfg, h, raw, a, slot.bucket, slot.pos, o);
    }
  }

  /** The split case of `AllocateShape`. */
  lemma SplitShape(cfg: Config, h: Heap, raw: nat, a: AllocResult, i: nat, j: nat, o: int, need: nat, leftover: nat)
    requires ValidConfig(cfg) && WellFormed(cfg, h) && raw > 0
    requires a == Allocate.Allocate(cfg, h, raw)
    requires need == ActualSize(cfg, raw)
    requires IsFirstFit(h.blocks, h.lists, need, StartBucket(cfg, raw), i, j) && o == h.lists[i][j]
    requires o in h.blocks && h.blocks[o].size == leftover + need && leftover >= cfg.headerSize
    ensures SplitSetting(cfg, h.blocks, o, leftover, need) && RightOf(h.blocks, o) in h.blocks
    ensures a.heap.blocks == SplitBlocks(h.blocks, o, leftover, need)
    ensures a.ptr == Some(o + leftover + cfg.allocHeaderSize)
  {
    AllocateSplitOutcome(cfg, h, raw, i, j, o, need, leftover);
  }

  /** The whole-block case of `AllocateShape`. */
  lemma WholeShape(cfg: Config, h: Heap, raw: nat, a: AllocResult, i: nat, j: nat, o: int)
    requires ValidConfig(cfg) && WellFormed(cfg, h) && raw > 0
    requires a == Allocate.Allocate(cfg, h, raw)
    requires IsFirstFit(h.blocks, h.lists, ActualSize(cfg, raw), StartBucket(cfg, raw), i, j) && o == h.lists[i][j]
    requires o in h.blocks && h.blocks[o].size < ActualSize(cfg, raw) + cfg.headerSize
    ensures a.heap.blocks == SetState(h.blocks, o, Allocated)
    ensures a.ptr == Some(o + cfg.allocHeaderSize)
  {
    AllocateWholeOutcome(cfg, h, raw, i, j, o);
    assert a.heap.blocks == SetState(h.blocks, o, Allocated);
  }

  /** Releasing the block handed out, in either shape, gives back the blocks
      from before the allocation. */
  lemma TakenReleaseRestores(cfg: Config, h: Heap, a: Heap, p: Option<int>, o: int, leftover: nat, need: nat, split: bool)
    requires ValidConfig(cfg) && BlocksOk(cfg, h.blocks)
    requires SizesOk(cfg, a.blocks) && HasNeighbours(a.blocks) && |a.lists| == cfg.nLists
    requires o in h.blocks && RightOf(h.blocks, o) in h.blocks && IsFree(h.blocks, o)
    requires split ==> && SplitSetting(cfg, h.blocks, o, leftover, need)
                       && a.blocks == SplitBlocks(h.blocks, o, leftover, need)
                       && p == Some(o + leftover + cfg.allocHeaderSize)
    requires !split ==> a.blocks == SetState(h.blocks, o, Allocated) && p == Some(o + cfg.allocHeaderSize)
    ensures p.Some? && HeaderOf(cfg, p.value) in a.blocks
    ensures a.blocks[HeaderOf(cfg, p.value)].state == Allocated
    ensures Release(cfg, a, HeaderOf(cfg, p.value)).blocks == h.blocks
  {
    if split {
      SplitReleaseRestores(cfg, h, a, o, leftover, need, p);
    } else {
      WholeReleaseRestores(cfg, h, a, o, p);
    }
  }

  /** Freeing an allocated block whose release gives back the blocks of an
      earlier heap restores that heap's free lists up to order. */
  lemma FreeRestores(cfg: Config, h: Heap, a: Heap, p: Option<int>)
    requires ValidConfig(cfg) && ListsExact(cfg, h)
    requires SizesOk(cfg, a.blocks) && HasNeighbours(a.blocks) && ListsExact(cfg, a)
    requires p.Some? && HeaderOf(cfg, p.value) in a.blocks
    requires a.blocks[HeaderOf(cfg, p.value)].state == Allocated
    requires Release(cfg, a, HeaderOf(cfg, p.value)).blocks == h.blocks
    ensures var d := Deallocate.Deallocate(cfg, a, p);
      d.Freed? && d.heap.blocks == h.blocks && Listed(d.heap.lists) == Listed(h.lists)
  {
    ReleaseListsExact(cfg, a, HeaderOf(cfg, p.value));
    assert Deallocate.Deallocate(cfg, a, p) == Freed(Release(cfg, a, HeaderOf(cfg, p.value)));
  }

  /** Freeing the block handed out, in either shape, restores the blocks
      and the free lists of the heap it was allocated from. */
  lemma TakenFreeRestores(cfg: Config, h: Heap, a: Heap, p: Option<int>, o: int, leftover: nat, need: nat, split: bool)
    requires ValidConfig(cfg) && BlocksOk(cfg, h.blocks) && ListsExact(cfg, h)
    requires SizesOk(cfg, a.blocks) && HasNeighbours(a.blocks) && ListsExact(cfg, a)
    requires o in h.blocks && RightOf(h.blocks, o) in h.blocks && IsFree(h.blocks, o)
    requires split ==> && SplitSetting(cfg, h.blocks, o, leftover, need)
                       && a.blocks == SplitBlocks(h.blocks, o, leftover, need)
                       && p == Some(o + leftover + cfg.allocHeaderSize)
    requires !split ==> a.blocks == SetState(h.blocks, o, Allocated) && p == Some(o + cfg.allocHeaderSize)
    ensures p.Some? && HeaderOf(cfg, p.value) in a.blocks
    ensures a.blocks[HeaderOf(cfg, p.value)].state == Allocated
    ensures var d := Deallocate.Deallocate(cfg, a, p);
      d.Freed? && d.heap.blocks == h.blocks && Listed(d.heap.lists) == Listed(h.lists)
  {
    TakenReleaseRestores(cfg, h, a, p, o, leftover, need, split);
    FreeRestores(cfg, h, a, p);
  }

  /** A client's `deallocate_object(allocate_object(raw))`. */
  function AllocateThenDeallocate(cfg: Config, h: Heap, raw: nat): (r: FreeResult)
    requires ValidConfig(cfg) && WellFormed(cfg, h)
    ensures raw == 0 ==> r == Freed(h)
    ensures r.Freed? ==> WellFormed(cfg, r.heap)
  {
    AllocateKeepsWellFormed(cfg, h, raw);
    var a := Allocate.Allocate(cfg, h, raw);
    DeallocateKeepsWellFormed(cfg, a.heap, a.ptr);
    Deallocate.Deallocate(cfg, a.heap, a.ptr)
  }

  /** Freeing the pointer `allocate_object` returned is never a double free,
      and it restores the blocks exactly and the free lists up to order
      (when the allocation fails, freeing NULL changes nothing). */
  lemma AllocateThenFree(cfg: Config, h: Heap, raw: nat)
    requires ValidConfig(cfg) && WellFormed(cfg, h)
    ensures AllocateThenDeallocate(cfg, h, raw).Freed?
    ensures AllocateThenDeallocate(cfg, h, raw).heap.blocks == h.blocks
    ensures Listed(AllocateThenDeallocate(cfg, h, raw).heap.lists) == Listed(h.lists)
  {
    var a := Allocate.Allocate(cfg, h, raw);
    if a.ptr.Some? {
      var o, leftover, need, split := AllocateShape(cfg, h, raw, a);
      AllocateKeepsWellFormed(cfg, h, raw);
      TakenFreeRestores(cfg, h, a.heap, a.ptr, o, leftover, need, split);
    }
  }
}

=== FILE: size_class.dfy ===
/** Request rounding and size-class selection. Bucket i nominally holds
    blocks whose payload is 8*(i+1) bytes; the last bucket is a catch-all. */
module SizeClass {
  import opened Heap

  /** The least multiple of 8 that is at least n. */
  function RoundUp8(n: nat): (r: nat)
    ensures r % 8 == 0
    ensures n <= r < n + 8
  {
    (n + 7) / 8 * 8
  }

  function Max(a: int, b: int): int
  {
    if a < b then b else a
  }

  /** The payload size granted for a request: aligned, and never below the
      allocation header size. */
  function Rounded(cfg: Config, raw: nat): (r: nat)
    requires ValidConfig(cfg)
    ensures r % 8 == 0
    ensures r >= raw && r >= cfg.allocHeaderSize
    ensures r == cfg.allocHeaderSize || r < raw + 8
    ensures raw > 0 ==> r >= 8
  {
    var aligned := RoundUp8(raw);
    if aligned < cfg.allocHeaderSize then cfg.allocHeaderSize else aligned
  }

  /** Total block size needed to serve a request: header plus payload. */
  function ActualSize(cfg: Config, raw: nat): (r: nat)
    requires ValidConfig(cfg)
    ensures r % 8 == 0
    ensures r >= raw + cfg.allocHeaderSize
    ensures r >= 2 * cfg.allocHeaderSize
    ensures raw > 0 ==> r >= cfg.allocHeaderSize + 8
  {
    var payload := Rounded(cfg, raw);
    assert cfg.allocHeaderSize + payload == 8 * (cfg.allocHeaderSize / 8 + payload / 8);
    cfg.allocHeaderSize + payload
  }

  /** The size class of a payload: `payload / 8 - 1`, capped at the last bucket. */
  function Bucket(cfg: Config, payload: nat): (b: nat)
    requires ValidConfig(cfg) && payload >= 8
    ensures b < cfg.nLists
    ensures b < cfg.nLists - 1 ==> 8 * (b + 1) <= payload < 8 * (b + 2)
    ensures b == cfg.nLists - 1 ==> payload >= 8 * cfg.nLists
  {
    var idx := payload / 8 - 1;
    if idx >= cfg.nLists then cfg.nLists - 1 else idx
  }

  /** Bucket where the first-fit search for a request starts. */
  function StartBucket(cfg: Config, raw: nat): (b: nat)
    requires ValidConfig(cfg) && raw > 0
    ensures b < cfg.nLists
  {
    Bucket(cfg, Rounded(cfg, raw))
  }

  /** Bucket for the free remainder of a split block. */
  function RemainderBucket(cfg: Config, size: nat): (b: nat)
    requires ValidConfig(cfg) && size >= cfg.headerSize
    ensures b < cfg.nLists
  {
    Bucket(cfg, size - cfg.allocHeaderSize)
  }

  /** Bucket for a block released by deallocation (payload floored at the header size). */
  function FreedBucket(cfg: Config, size: nat): (b: nat)
    requires ValidConfig(cfg) && size >= cfg.allocHeaderSize + 8
    ensures b < cfg.nLists
  {
    Bucket(cfg, Max(size - cfg.allocHeaderSize, cfg.allocHeaderSize))
  }

  /** Larger payloads never fall into a smaller size class. */
  lemma BucketMonotone(cfg: Config, p: nat, q: nat)
    requires ValidConfig(cfg) && 8 <= p <= q
    ensures Bucket(cfg, p) <= Bucket(cfg, q)
  {
    assert p / 8 <= q / 8;
  }

  /** Rounding never decreases when the request grows. */
  lemma RoundedMonotone(cfg: Config, a: nat, b: nat)
    requires ValidConfig(cfg) && a <= b
    ensures Rounded(cfg, a) <= Rounded(cfg, b)
  {
    assert (a + 7) / 8 <= (b + 7) / 8;
  }

  /** The starting bucket is non-decreasing in the request size. */
  lemma StartBucketMonotone(cfg: Config, a: nat, b: nat)
    requires ValidConfig(cfg) && 0 < a <= b
    ensures StartBucket(cfg, a) <= StartBucket(cfg, b)
  {
    RoundedMonotone(cfg, a, b);
    BucketMonotone(cfg, Rounded(cfg, a), Rounded(cfg, b));
  }
}

=== FILE: wrappers.dfy ===
/** The optional value used for NULL pointers and for searches that find nothing. */
module Wrappers {
  datatype Option<+T> = None | Some(value: T)
}
